=== FILE: README.md ===
# gifmaker: crop editor, trim timeline and export planning in Dafny

gifmaker is a desktop tool that turns a stretch of a video into a GIF or a
short video clip. The user trims a frame range on a timeline, drags a crop
rectangle over the preview, and exports. This project models the integer
core of that workflow and proves its properties:

- `crop_preview.dfy` (module `CropPreview`): the crop rectangle editor
  `CropPreviewWidget`. It is a class whose fields are the source size, the
  crop `(x, y, w, h)`, whether a frame is shown, and the drag state (a corner,
  a whole-rectangle move, or nothing) with the offset captured at press. It
  also holds the pure clamp (`ClampRect`), the move and corner-resize
  geometry (`MovedRect`, `ResizedRect`) and the `cropChanged` rule
  (`CropSignal`). The pointer arrives as an integer source coordinate, and
  the hit test arrives as its outcome (which corner, if any; inside or not).
- `timeline_widget.dfy` (module `Timeline`): the trim timeline
  `TimelineWidget`. It is a class with the frame count, the trim range, the
  scrub position and the grabbed handle, plus the frame↔x maps `FrameToX` and
  `XToFrame` over a track whose left edge and width are parameters. Emitted
  signals are the methods' return values.
- `export_planning.dfy` (module `ExportPlanning`): the pure steps of an export.
  These are the range check, the sampled frame numbers, the output-path
  extension rule, the crop slice, the format tables, the palette and
  frame-duration clamps, the thumbnail count, and the frame-collection loop
  (`CollectFrames`, all or nothing).
- `main_window.dfy` (module `MainWindow`): the main window `GifMakerWindow`,
  which owns one crop editor and one timeline. It covers loading a video
  (the range reset), the slots that copy the timeline's signals into the
  window, and `ExportMedia`. That method chains the plan, the frame loop with
  the crop, and the encoder's outcome.
- `numeric.dfy` (module `Numeric`): Python's `min`, `max`, `int()` of a
  quotient, truncating toward zero (`TruncDiv`), and `round` (`RoundHalfEven`, ties to even),
  on exact integers and rationals.
- `wrappers.dfy` (module `Wrappers`): `Option` and `Result`.

Foreign calls become parameters. These are the video reader's open result and
decoded frame sizes, the save dialog's path, the progress dialog's cancel
flag, and whether the encoder succeeded.

Three behaviours of the source are kept exactly as written:

- `set_crop_rect` alone may leave a rectangle that reaches past the right or
  bottom edge. An origin within `MIN_SIZE` of that edge still gets a side of
  `MIN_SIZE` (`ClampMayOverhang`). The drag paths stay inside the source when
  the source is at least `MIN_SIZE` on each side.
- The size estimate counts a one-frame range, but export refuses it
  (`SingleFrameRangeRefused`).
- `load_video` resets the window's range and resizes the crop editor before
  it reads the thumbnails. When one of those reads fails, the exception ends
  the load before `set_video_data`, so the timeline keeps the previous
  video's frame count and range while the window holds the new video's.
  The window's ghost flag `timelineSized` records which state it is in, and
  the agreement between window and timeline is promised only while it holds.

## Model

| member | source | states |
|---|---|---|
| Numeric.TruncDiv | gifmaker_app/timeline_widget.py:64 | `int()` of a quotient: truncates toward zero, so for a ≥ 0 the result q satisfies q·b ≤ a < q·b + b, and for a < 0 the mirror bound holds |
| Numeric.RoundHalfEven | gifmaker_app/timeline_widget.py:72 | Python `round`: the result is within half a unit of n/d, and an exact tie goes to the even neighbour |
| Numeric.RoundWithin | gifmaker_app/timeline_widget.py:72 | rounding a quotient that lies in [lo, hi] gives a result in [lo, hi] |
| Numeric.RoundNearK | gifmaker_app/timeline_widget.py:72 | a quotient strictly within half a unit of k rounds to k |
| Numeric.RoundMonotone | gifmaker_app/main_window.py:484 | rounding is monotone in the numerator |
| Numeric.TruncDivMonotone | gifmaker_app/timeline_widget.py:64 | truncating division is monotone in the numerator |
| CropPreview.ClampRect | gifmaker_app/crop_preview.py:54-61 | the stored rectangle: x clamped to [0, sw-1] and y to [0, sh-1], w = max(MIN_SIZE, min(w, sw-x)), h the same; an in-bounds request is kept as is; the result is always Normalized |
| CropPreview.ClampFixedPoints | gifmaker_app/crop_preview.py:54-77 | the clamp leaves a rectangle unchanged exactly when it is Normalized, i.e. one set_crop_rect can store |
| CropPreview.ClampIdempotent | gifmaker_app/crop_preview.py:54-61 | clamping a clamped rectangle changes nothing |
| CropPreview.ClampMayOverhang | gifmaker_app/crop_preview.py:58-61 | the origin (8, 0) of a 4×4 rectangle in a 10×10 source is kept, and the rectangle then reaches past the right edge |
| CropPreview.MovedRect | gifmaker_app/crop_preview.py:228-233 | a move keeps w and h and puts the origin at the pointer minus the press offset when that fits; an origin left of (above) the source goes to 0, one past sw-w (sh-h) goes to sw-w (sh-h), and a rectangle wider (taller) than the source goes to x = 0 (y = 0); the result stays in bounds |
| CropPreview.MoveWithoutMotion | gifmaker_app/crop_preview.py:217-218 | dragging with the pointer still where it was pressed leaves an in-bounds rectangle where it is |
| CropPreview.ResizedRect | gifmaker_app/crop_preview.py:236-259 | after a corner resize both sides are at least MIN_SIZE, and the rectangle is inside the source when the source is at least MIN_SIZE on each side |
| CropPreview.ResizeKeepsOppositeEdges | gifmaker_app/crop_preview.py:236-253 | for each corner, the two edges away from it stay fixed, and each moving edge is the pointer coordinate kept MIN_SIZE from the fixed edge opposite it |
| CropPreview.TopLeftDragExample | gifmaker_app/crop_preview.py:236-259 | (10, 10, 100, 100) in 400×300 with the top-left corner dragged to (5, 200) becomes (5, 106, 105, 4) |
| CropPreview.CropSignal | gifmaker_app/crop_preview.py:63-77 | `cropChanged` fires exactly when the caller asked for it and some field changed, and it carries the new rectangle |
| CropPreview.CropPreviewWidget.constructor | gifmaker_app/crop_preview.py:14-33 | no source size, a zero crop, no frame shown, no drag |
| CropPreview.CropPreviewWidget.CropRect | gifmaker_app/crop_preview.py:49-52 | the crop exists exactly when the source size is set, and it is then the stored rectangle |
| CropPreview.CropPreviewWidget.SetCropRect | gifmaker_app/crop_preview.py:54-77 | no-op while the source size is unset; otherwise stores ClampRect of the request and returns the CropSignal of old vs new; re-storing the stored rectangle changes nothing and emits nothing; the invariant holds afterwards |
| CropPreview.CropPreviewWidget.SetSourceSize | gifmaker_app/crop_preview.py:35-38 | stores max(1, w) and max(1, h) and resets the crop; when both sides are at least MIN_SIZE the crop is the full frame; emits if the crop changed |
| CropPreview.CropPreviewWidget.SetFrame | gifmaker_app/crop_preview.py:40-47 | marks a frame shown; the first frame sets the source size from its own dimensions; later frames leave size and crop alone |
| CropPreview.CropPreviewWidget.MousePress | gifmaker_app/crop_preview.py:200-219 | only a left press over a shown frame acts: it clears both drag kinds, then a corner hit starts only a corner drag, an inside hit starts only a move and records the pointer's offset from the origin, and anything else starts nothing; the crop never changes |
| CropPreview.CropPreviewWidget.MouseMove | gifmaker_app/crop_preview.py:221-259 | with no drag nothing changes and nothing is emitted; a move stores ClampRect of MovedRect, a corner drag ClampRect of ResizedRect; both stay in bounds under the conditions above; emits exactly when the crop changed |
| CropPreview.CropPreviewWidget.MouseRelease | gifmaker_app/crop_preview.py:261-265 | both drag kinds are cleared and the crop is unchanged |
| Timeline.TrackSpan | gifmaker_app/timeline_widget.py:62 | the track's divisor: width - 1 for a track of at least two pixels, 1 for a narrower one |
| Timeline.FrameToX | gifmaker_app/timeline_widget.py:59-64 | the left edge when there is at most one frame; otherwise frame 0 maps to the left edge, the last frame to left + span, and every frame in between to the track |
| Timeline.FrameToXMonotone | gifmaker_app/timeline_widget.py:59-64 | a later frame never maps to the left of an earlier one |
| Timeline.XToFrame | gifmaker_app/timeline_widget.py:66-72 | 0 when there is at most one frame; otherwise a frame in [0, fc-1]; positions at or left of the track's left edge give 0, and positions at or past its right edge give fc-1 |
| Timeline.FrameRoundTrip | gifmaker_app/timeline_widget.py:59-72 | with at least one pixel per frame step, mapping a frame to x and back gives that frame or the one before |
| Timeline.RoundTripNeedsPixels | gifmaker_app/timeline_widget.py:59-72 | with fewer pixels than frame steps the round trip can drift further: on a 101 px track with 1001 frames, frame 5 maps to the left edge, which maps back to frame 0 |
| Timeline.FrameRoundTripExact | gifmaker_app/timeline_widget.py:59-72 | with at least two pixels per frame step the round trip is exact |
| Timeline.PressTarget | gifmaker_app/timeline_widget.py:136-145 | a press within HANDLE_RADIUS of the start marker grabs start; otherwise one near the end marker grabs end; otherwise it grabs current (both directions) |
| Timeline.TimelineWidget.constructor | gifmaker_app/timeline_widget.py:14-26 | one frame, range [0, 0], scrub position 0, no handle |
| Timeline.TimelineWidget.SetVideoData | gifmaker_app/timeline_widget.py:28-41 | establishes fc ≥ 1, 0 ≤ start ≤ end ≤ fc-1 and 0 ≤ current ≤ fc-1 by clamping; a request already in range is stored unchanged |
| Timeline.TimelineWidget.SetCurrentFrame | gifmaker_app/timeline_widget.py:43-47 | the scrub position becomes the frame clamped to [0, fc-1]; nothing else changes |
| Timeline.TimelineWidget.SetRange | gifmaker_app/timeline_widget.py:49-57 | start clamped to [0, fc-1] and end to [start, fc-1]; `rangeChanged(start, end)` is emitted exactly when either changed |
| Timeline.TimelineWidget.MousePress | gifmaker_app/timeline_widget.py:128-145 | a non-left press changes nothing; otherwise the handle is PressTarget at the markers' x; grabbing current sets the scrub position to the frame under the pointer and always emits `currentFrameChanged` |
| Timeline.TimelineWidget.MouseMove | gifmaker_app/timeline_widget.py:147-162 | with no handle nothing happens; start becomes min(frame, end) with end kept; end becomes max(frame, start) with start kept; current follows the pointer, not clamped to the range, and emits only when it changed |
| Timeline.TimelineWidget.MouseRelease | gifmaker_app/timeline_widget.py:164-166 | drops the handle and changes nothing else |
| ExportPlanning.Lower | gifmaker_app/main_window.py:419 | `lower()`, used on the chosen format and on the save path: keeps the length, lower-cases each ASCII letter, and leaves no upper-case letter |
| ExportPlanning.LowerAppend | gifmaker_app/main_window.py:437 | lower-casing distributes over concatenation |
| ExportPlanning.FormatDefaults | gifmaker_app/main_window.py:420-426 | each known format's default suffix is "." + format; an unknown format gets the GIF filter and suffix |
| ExportPlanning.DefaultSuffixKept | gifmaker_app/main_window.py:420-442 | a path ending in the dialog's default suffix for a known format is never extended |
| ExportPlanning.FourCC | gifmaker_app/main_window.py:500-506 | webm → VP90, mpeg → PIM1, anything else → mp4v, always four characters |
| ExportPlanning.AppendedSuffixAccepted | gifmaker_app/main_window.py:437-442 | a path with the appended extension is one the rule accepts |
| ExportPlanning.NormalizeSuffix | gifmaker_app/main_window.py:437-442 | the path is a prefix of the result; a path that already ends, in any letter case, with an accepted extension (.mpeg or .mpg for mpeg, else .format) is kept, any other gets AppendedSuffix (.mpeg for mpeg, else .format) added; the result always ends with an accepted extension |
| ExportPlanning.NormalizeSuffixIdempotent | gifmaker_app/main_window.py:437-442 | normalizing twice is normalizing once |
| ExportPlanning.MpegExtensionsKept | gifmaker_app/main_window.py:437-442 | "clip.MPG" and "clip.mpeg" are kept for mpeg, "clip" becomes "clip.mpeg", and "clip.gif" for mp4 becomes "clip.gif.mp4" |
| ExportPlanning.SampledIndices | gifmaker_app/main_window.py:447-449 | `range(start, end + 1, step)`: empty when start > end, otherwise (end - start) / step + 1 numbers; the i-th is start + i·step, all lie in [start, end], and one more step would pass end |
| ExportPlanning.DivStep | gifmaker_app/main_window.py:449 | taking one step from a distance takes one from its quotient by the step |
| ExportPlanning.SamplingExample | gifmaker_app/main_window.py:449 | frames 0..99 every 3rd frame gives 34 numbers ending at 99 |
| ExportPlanning.EstimateFrameCount | gifmaker_app/main_window.py:339-343 | the estimate has a frame count exactly when start ≤ end, and it is (end - start) / step + 1 |
| ExportPlanning.EstimateCountsExportedFrames | gifmaker_app/main_window.py:339-343 | whenever export proceeds, the size estimate counts exactly the frames export samples |
| ExportPlanning.SingleFrameRangeRefused | gifmaker_app/main_window.py:339-343 | a one-frame range has an estimate of one frame, but export refuses it as an invalid range |
| ExportPlanning.ApplyCrop | gifmaker_app/main_window.py:310-320 | no crop keeps the whole image; otherwise the slice is non-empty and inside the image, and a crop already inside the image is cut out unchanged |
| ExportPlanning.EditorCropCutExactly | gifmaker_app/main_window.py:310-320 | a crop the editor keeps inside a source of the image's size is cut out exactly |
| ExportPlanning.StoredCropTrimmed | gifmaker_app/main_window.py:310-320 | any rectangle the editor can store, even one overhanging the image, is cut at its own origin with its width and height trimmed to the image's right and bottom edges |
| ExportPlanning.OverhangingCropExample | gifmaker_app/main_window.py:310-320 | the overhanging (8, 0, 4, 4) the editor keeps in a 10×10 frame is cut as (8, 0, 2, 4) |
| ExportPlanning.PaletteColors | gifmaker_app/main_window.py:484 | the GIF palette size is always in [16, 256]; quality ≤ 0 gives 16, quality ≥ 100 gives 256, and in between it is within half a colour of 16 + 2.4·quality |
| ExportPlanning.PaletteMonotone | gifmaker_app/main_window.py:484 | a higher quality never gives a smaller palette |
| ExportPlanning.FrameDurationMs | gifmaker_app/main_window.py:483 | the GIF frame duration is at least 1 ms and, up to 1000 fps, within half a millisecond of 1000 / fps |
| ExportPlanning.FrameDurationTie | gifmaker_app/main_window.py:483 | 16 fps gives 62 ms (62.5 rounded to even), and 12 fps gives 83 ms |
| ExportPlanning.ThumbnailCount | gifmaker_app/main_window.py:229 | at least two thumbnails; otherwise no more than the target or the frame count, and equal to one of them when both are at least two |
| ExportPlanning.PlanExport | gifmaker_app/main_window.py:415-453 | end ≤ start is refused as an invalid range, and an empty save path as cancelled; otherwise export proceeds: the sampled frames start at start, the path keeps the chosen path as a prefix and ends with an accepted extension, the path is NormalizeSuffix of the chosen path with the lower-cased format, GIF settings are used exactly for gif and are FrameDurationMs(fps), PaletteColors(quality) and optimize exactly when quality ≥ 70, and video settings are the fourCC from the table and the target fps; "no frames" never happens |
| ExportPlanning.FrameError | gifmaker_app/main_window.py:460-467 | a frame ends the export exactly when the progress dialog was cancelled or its decode failed |
| ExportPlanning.CollectFrames | gifmaker_app/main_window.py:459-479 | succeeds exactly when no frame is cancelled or fails to decode; it then yields every decoded frame in order; otherwise it fails with the error of the first frame that did |
| MainWindow.DefaultTargetWidth | gifmaker_app/main_window.py:207 | the GIF width after a load is the video's width capped at 480 and raised to the spin box's minimum 120, so it lies in [120, 480] |
| MainWindow.PrepareFrame | gifmaker_app/main_window.py:465-471 | a decoded frame with pixels yields a non-empty slice inside it, and it is ApplyCrop of the crop at the frame's size (the editor's crop itself when that is in bounds); a failed decode yields nothing |
| MainWindow.GifMakerWindow.constructor | gifmaker_app/main_window.py:77-135 | no video, export disabled, frames 0/0/0, spin defaults 480 px, 12 fps and 80 % |
| MainWindow.GifMakerWindow.ShowFrame | gifmaker_app/main_window.py:249-257 | a decoded frame of an open video reaches the crop editor; without one nothing changes; the crop is unchanged once the source size is set |
| MainWindow.GifMakerWindow.LoadVideo | gifmaker_app/main_window.py:190-222 | an empty path does nothing; an unreadable file leaves no video loaded and every other field, the spin boxes and both widgets as they were; an opened video resets current = start = 0 and end = fc - 1 in the window, enables export, sizes the crop editor to the full frame and sets the default width; if the thumbnails are read the timeline gets the same values and the first frame is shown, and if a read fails the timeline and the shown frame are left as they were |
| MainWindow.GifMakerWindow.ResetForVideo | gifmaker_app/main_window.py:200-209 | the window's range reset to the whole opened video, export enabled, default width set, and the crop editor's crop reset to ClampRect of the full source (the full frame when both sides are at least MIN_SIZE) |
| MainWindow.GifMakerWindow.DeliverTimelineSignal | gifmaker_app/main_window.py:381-389 | `currentFrameChanged` sets the window's scrub position and shows the frame; `rangeChanged` copies the range; fields the signal does not carry are left alone; afterwards the window agrees with the timeline again whenever the timeline is sized for the video |
| MainWindow.GifMakerWindow.TimelineMousePress | gifmaker_app/timeline_widget.py:128-145 | a left press grabs PressTarget of the markers' x; grabbing current moves the timeline's and the window's scrub position to the frame under x; any other press leaves both scrub positions; the range is never touched |
| MainWindow.GifMakerWindow.TimelineMouseMove | gifmaker_app/timeline_widget.py:147-162 | the timeline moves the grabbed handle (start to min(frame, end), end to max(frame, start), current to the frame) and the window copies exactly the values whose change the timeline reports; with no handle nothing changes; 0 ≤ start ≤ end ≤ fc-1 in the window while the timeline is sized |
| MainWindow.GifMakerWindow.RangeIsTimelines | gifmaker_app/main_window.py:385-389 | the window's range is always non-empty, and inside the timeline and the loaded video while the timeline is sized for it |
| MainWindow.GifMakerWindow.ExportMedia | gifmaker_app/main_window.py:410-521 | no video: nothing; a refused plan returns its error; every frame number read lies inside the video while the timeline is sized for it; after a successful plan the outcome is RunPlan's on the plan, the export's cancel flags and the decoder followed by the editor's crop |
| MainWindow.RunPlan | gifmaker_app/main_window.py:459-521 | success exactly when no frame is cancelled or fails to decode and the encoder succeeds, and then the planned path and encoding with one crop slice per sampled frame, in order; otherwise the first cancelled or undecodable frame's error (Cancelled or ReadFailed), or EncodeFailed exactly when every frame was prepared and the encoder failed |

## Left out

- Painting, styles, cursors and hover (`paintEvent`, `_update_cursor_and_hover`, `leaveEvent`): they are UI only and change no model state.
- The display geometry `_display_image_rect`, `_source_to_widget`, `_widget_to_source` and the corner-distance test in `_hit_test`: these are floating-point mappings. The model takes the integer source pointer they produce and the hit test's outcome as inputs.
- Timeline.FrameToX and Timeline.XToFrame use exact rational arithmetic. The source computes `frame / (fc - 1) * width` and `pos / width * (fc - 1)` in floating point, and float error can shift a result by one where the exact value is an integer or a tie.
- ExportPlanning.Lower: `strip()` of the format text is not modelled, and `lower()` is modelled on ASCII letters only.
- ExportPlanning.PaletteColors and ExportPlanning.FrameDurationMs round the exact values 16 + q·240/100 and 1000/fps, not their floating-point approximations.
- `step = max(1, round(fps / target_fps))` is floating-point arithmetic on the reader's frame rate. It is an input (`step ≥ 1`) to PlanExport and ExportMedia.
- The float parts of `_estimate_output_size_bytes` (bytes per frame, bitrates, compression ratios) and `_format_size`: only the frame count the estimate uses is modelled (EstimateFrameCount).
- The thumbnail frame indices from `np.linspace` and the thumbnail scaling are left out. Only their count (ThumbnailCount) is modelled.
- The first/last comparison overlay (`_build_comparison_rgb`, `_update_comparison_view`, `on_compare_toggled`): it is float colour blending with no effect on export state.
- gifmaker_app/video_reader.py is not part of this model. Its outcomes are parameters: the open result, and the decoded frame size or a failure. LoadVideo requires what the reader guarantees for an opened file, at least two frames (gifmaker_app/video_reader.py:25-27).
- MainWindow.PrepareFrame treats a decoded frame with no pixels as a failed read. The source would go on to divide by a zero width.
- Resizing with `cv2.resize` to the target width, colour conversion, PIL palette quantisation, and writing GIF or video files are foreign calls. ExportMedia records the crop slice of each frame and the settings in `Encoding`, and takes the encoder's success as the `encoderOk` input.
- ExportPlanning.PlanExport: the GIF writer's constant options `loop=0` and `disposal=2`, and the video writer's frame size (the first resized frame's width and height), are not recorded in `Encoding`. The frame size comes from `cv2.resize`, which is not modelled; the video frame rate is recorded as the integer target fps that the source passes as `float(target_fps)`.
- The file and message dialogs and the progress dialog are modelled only as their outcomes: the chosen path (empty when cancelled) and a per-frame cancel flag.
- The spin boxes for width, fps and quality are fields kept inside their Qt ranges. Edits to them only refresh the size estimate, so they are not modelled as operations.
- `closeEvent`, `resizeEvent`, the application bootstrap (app.py, gifmaker_app/main.py) and gifmaker_app/models.py (a record whose only behaviour is a float duration) are left out.
- MainWindow.GifMakerWindow.TimelineMouseMove: the bound end ≤ fc - 1 on the window's range is promised only while `timelineSized` holds. After a load whose thumbnail read failed, the stale timeline can hand the window a range past the new video's end.
- MainWindow.GifMakerWindow.RangeIsTimelines: the range lies inside the timeline and the video only while `timelineSized` holds, for the same reason.
- MainWindow.GifMakerWindow.ExportMedia: every exported frame number lies inside the video only while `timelineSized` holds, for the same reason.
- MainWindow.GifMakerWindow.LoadVideo: which thumbnail read fails, and the message Qt shows for the uncaught exception, are not modelled. Only whether the reads succeeded is an input (`thumbnailsOk`).

=== FILE: crop_preview.dfy ===
/** The crop-rectangle editor (`CropPreviewWidget`): a rectangle in source-pixel
    coordinates over a frame of known size, edited by dragging one of its four
    corners or the whole rectangle. Painting, cursors and hover highlighting are
    not modelled; the pointer arrives already mapped to an integer source
    coordinate and the hit test arrives as its outcome. */
module CropPreview {
  import opened Wrappers
  import opened Numeric

  /** `MIN_SIZE`: the smallest side a crop rectangle is given. */
  const MinSize: int := 4

  datatype Corner = TopLeft | TopRight | BottomLeft | BottomRight

  /** A rectangle `(x, y, w, h)` in source pixels. */
  datatype Rect = Rect(x: int, y: int, w: int, h: int) {
    function Right(): int { x + w }
    function Bottom(): int { y + h }
  }

  /** The rectangle lies inside a `sw` x `sh` source and is at least MinSize on each side. */
  predicate InBounds(sw: int, sh: int, r: Rect) {
    0 <= r.x && MinSize <= r.w && r.x + r.w <= sw &&
    0 <= r.y && MinSize <= r.h && r.y + r.h <= sh
  }

  /** The rectangles `set_crop_rect` can store: origin inside the source, each
      side at least MinSize, and a side reaching past the source edge only when
      it was forced up to MinSize. */
  predicate Normalized(sw: int, sh: int, r: Rect) {
    0 <= r.x < sw && 0 <= r.y < sh &&
    MinSize <= r.w && (r.x + r.w <= sw || r.w == MinSize) &&
    MinSize <= r.h && (r.y + r.h <= sh || r.h == MinSize)
  }

  /** The rectangle `set_crop_rect` stores for a requested one, once the source
      size is known. */
  function ClampRect(sw: int, sh: int, r: Rect): (c: Rect)
    requires sw > 0 && sh > 0
    ensures Normalized(sw, sh, c)
    ensures 0 <= r.x < sw ==> c.x == r.x
    ensures r.x < 0 ==> c.x == 0
    ensures r.x >= sw ==> c.x == sw - 1
    ensures 0 <= r.y < sh ==> c.y == r.y
    ensures r.y < 0 ==> c.y == 0
    ensures r.y >= sh ==> c.y == sh - 1
    ensures MinSize <= r.w <= sw - c.x ==> c.w == r.w
    ensures r.w < MinSize ==> c.w == MinSize
    ensures r.w > sw - c.x ==> c.w == Max(MinSize, sw - c.x)
    ensures MinSize <= r.h <= sh - c.y ==> c.h == r.h
    ensures r.h < MinSize ==> c.h == MinSize
    ensures r.h > sh - c.y ==> c.h == Max(MinSize, sh - c.y)
    ensures InBounds(sw, sh, r) ==> c == r
  {
    var x := Clamp(r.x, 0, sw - 1);
    var y := Clamp(r.y, 0, sh - 1);
    Rect(x, y, Max(MinSize, Min(r.w, sw - x)), Max(MinSize, Min(r.h, sh - y)))
  }

  /** The stored rectangles are exactly the fixed points of the clamp, so
      storing a stored rectangle again changes nothing. */
  lemma ClampFixedPoints(sw: int, sh: int, r: Rect)
    requires sw > 0 && sh > 0
    ensures ClampRect(sw, sh, r) == r <==> Normalized(sw, sh, r)
  {
  }

  lemma ClampIdempotent(sw: int, sh: int, r: Rect)
    requires sw > 0 && sh > 0
    ensures ClampRect(sw, sh, ClampRect(sw, sh, r)) == ClampRect(sw, sh, r)
  {
    ClampFixedPoints(sw, sh, ClampRect(sw, sh, r));
  }

  /** The clamp alone does not keep the rectangle inside the source: an origin
      within MinSize of the right edge still gets a MinSize width. */
  lemma ClampMayOverhang()
    ensures ClampRect(10, 10, Rect(8, 0, 4, 4)) == Rect(8, 0, 4, 4)
    ensures !InBounds(10, 10, ClampRect(10, 10, Rect(8, 0, 4, 4)))
  {
  }

  /** The rectangle a whole-rectangle drag asks for: the pointer minus the
      offset captured at press, clamped so that the rectangle fits. */
  function MovedRect(sw: int, sh: int, r: Rect, offsetX: int, offsetY: int, px: int, py: int): (m: Rect)
    ensures m.w == r.w && m.h == r.h
    ensures r.w <= sw ==> 0 <= m.x <= sw - r.w
    ensures r.h <= sh ==> 0 <= m.y <= sh - r.h
    ensures 0 <= px - offsetX <= sw - r.w ==> m.x == px - offsetX
    ensures 0 <= py - offsetY <= sh - r.h ==> m.y == py - offsetY
    ensures r.w <= sw && px - offsetX < 0 ==> m.x == 0
    ensures r.w <= sw && px - offsetX > sw - r.w ==> m.x == sw - r.w
    ensures r.h <= sh && py - offsetY < 0 ==> m.y == 0
    ensures r.h <= sh && py - offsetY > sh - r.h ==> m.y == sh - r.h
    ensures r.w > sw ==> m.x == 0
    ensures r.h > sh ==> m.y == 0
    ensures MinSize <= r.w <= sw && MinSize <= r.h <= sh ==> InBounds(sw, sh, m)
  {
    Rect(Clamp(px - offsetX, 0, sw - r.w), Clamp(py - offsetY, 0, sh - r.h), r.w, r.h)
  }

  /** Dragging a rectangle without moving the pointer from where it was
      pressed leaves the rectangle where it is. */
  lemma MoveWithoutMotion(sw: int, sh: int, r: Rect, px: int, py: int)
    requires InBounds(sw, sh, r)
    ensures MovedRect(sw, sh, r, px - r.x, py - r.y, px, py) == r
  {
  }

  /** The dragged corner's edges follow the pointer, kept MinSize away from the
      fixed opposite edges; the edges are then clamped to the source. */
  function ResizedRect(sw: int, sh: int, r: Rect, corner: Corner, px: int, py: int): (c: Rect)
    ensures MinSize <= c.w && MinSize <= c.h
    ensures sw >= MinSize && sh >= MinSize ==> InBounds(sw, sh, c)
  {
    var left := if corner == TopLeft || corner == BottomLeft then Min(px, r.Right() - MinSize) else r.x;
    var right := if corner == TopRight || corner == BottomRight then Max(px, r.x + MinSize) else r.Right();
    var top := if corner == TopLeft || corner == TopRight then Min(py, r.Bottom() - MinSize) else r.y;
    var bottom := if corner == BottomLeft || corner == BottomRight then Max(py, r.y + MinSize) else r.Bottom();
    var left' := Clamp(left, 0, sw - MinSize);
    var top' := Clamp(top, 0, sh - MinSize);
    var right' := Max(left' + MinSize, Min(right, sw));
    var bottom' := Max(top' + MinSize, Min(bottom, sh));
    Rect(left', top', right' - left', bottom' - top')
  }

  /** Resizing from a rectangle inside the source, with the pointer inside the
      source: the two edges away from the dragged corner stay where they were,
      and each moving edge is the pointer coordinate, kept at least MinSize
      from the fixed edge opposite it. */
  lemma ResizeKeepsOppositeEdges(sw: int, sh: int, r: Rect, corner: Corner, px: int, py: int)
    requires InBounds(sw, sh, r)
    requires 0 <= px <= sw && 0 <= py <= sh
    ensures var c := ResizedRect(sw, sh, r, corner, px, py);
      match corner
      case TopLeft =>
        c.Right() == r.Right() && c.Bottom() == r.Bottom() &&
        c.x == Min(px, r.Right() - MinSize) && c.y == Min(py, r.Bottom() - MinSize)
      case TopRight =>
        c.x == r.x && c.Bottom() == r.Bottom() &&
        c.Right() == Max(px, r.x + MinSize) && c.y == Min(py, r.Bottom() - MinSize)
      case BottomLeft =>
        c.Right() == r.Right() && c.y == r.y &&
        c.x == Min(px, r.Right() - MinSize) && c.Bottom() == Max(py, r.y + MinSize)
      case BottomRight =>
        c.x == r.x && c.y == r.y &&
        c.Right() == Max(px, r.x + MinSize) && c.Bottom() == Max(py, r.y + MinSize)
  {
  }

  /** Rectangle (10, 10, 100, 100) in a 400 x 300 source, top-left corner
      dragged to (5, 200): left follows the pointer, top stops MinSize above
      the fixed bottom edge. */
  lemma TopLeftDragExample()
    ensures ResizedRect(400, 300, Rect(10, 10, 100, 100), TopLeft, 5, 200) == Rect(5, 106, 105, 4)
    ensures ClampRect(400, 300, Rect(5, 106, 105, 4)) == Rect(5, 106, 105, 4)
  {
  }

  /** The `cropChanged` payload a store emits: the new rectangle, when the
      caller asked for the signal and a field changed. */
  function CropSignal(emitSignal: bool, before: Rect, after: Rect): (s: Option<Rect>)
    ensures s.Some? <==> emitSignal && before != after
    ensures s.Some? ==> s.value == after
  {
    if emitSignal && before != after then Some(after) else None
  }

  class CropPreviewWidget {
    var sourceWidth: int
    var sourceHeight: int
    var cropX: int
    var cropY: int
    var cropW: int
    var cropH: int
    /** Whether a frame has been shown (`_image_pixmap is not None`). */
    var hasImage: bool
    var dragCorner: Option<Corner>
    var draggingRect: bool
    var dragOffsetX: int
    var dragOffsetY: int

    function Crop(): Rect
      reads this
    {
      Rect(cropX, cropY, cropW, cropH)
    }

    /** The widget's invariant: the source size is unset (both zero) or set
        (both positive); once set, the stored rectangle is one the clamp
        produces; a drag needs a shown frame; a corner drag and a rectangle
        drag are never active together. */
    ghost predicate Valid()
      reads this
    {
      ValidState() && (sourceWidth > 0 ==> Normalized(sourceWidth, sourceHeight, Crop()))
    }

    /** The part of Valid() that does not concern the stored rectangle. */
    ghost predicate ValidState()
      reads this
    {
      && 0 <= sourceWidth && 0 <= sourceHeight
      && (sourceWidth == 0 <==> sourceHeight == 0)
      && (hasImage ==> sourceWidth > 0)
      && (dragCorner.Some? || draggingRect ==> hasImage)
      && !(dragCorner.Some? && draggingRect)
    }

    constructor ()
      ensures Valid()
      ensures sourceWidth == 0 && sourceHeight == 0 && Crop() == Rect(0, 0, 0, 0)
      ensures !hasImage && dragCorner == None && !draggingRect
      ensures dragOffsetX == 0 && dragOffsetY == 0
    {
      sourceWidth, sourceHeight := 0, 0;
      cropX, cropY, cropW, cropH := 0, 0, 0, 0;
      hasImage := false;
      dragCorner, draggingRect := None, false;
      dragOffsetX, dragOffsetY := 0, 0;
    }

    /** `crop_rect`: the stored rectangle, or nothing while the source size is unset. */
    function CropRect(): (r: Option<Rect>)
      reads this
      ensures r.Some? <==> sourceWidth > 0 && sourceHeight > 0
      ensures r.Some? ==> r.value == Crop()
    {
      if sourceWidth <= 0 || sourceHeight <= 0 then None else Some(Crop())
    }

    /** `set_crop_rect`: a no-op while the source size is unset; otherwise
        stores the clamped rectangle and returns the `cropChanged` signal it
        emits, if any. */
    method SetCropRect(x: int, y: int, width: int, height: int, emitSignal: bool) returns (signal: Option<Rect>)
      requires ValidState()
      modifies this
      ensures Valid()
      ensures sourceWidth == old(sourceWidth) && sourceHeight == old(sourceHeight)
      ensures hasImage == old(hasImage) && dragCorner == old(dragCorner) && draggingRect == old(draggingRect)
      ensures dragOffsetX == old(dragOffsetX) && dragOffsetY == old(dragOffsetY)
      ensures sourceWidth == 0 ==> Crop() == old(Crop()) && signal == None
      ensures sourceWidth > 0 ==> Crop() == ClampRect(sourceWidth, sourceHeight, Rect(x, y, width, height))
      ensures signal == CropSignal(emitSignal, old(Crop()), Crop())
      ensures old(Valid()) && Rect(x, y, width, height) == old(Crop()) ==> Crop() == old(Crop()) && signal == None
    {
      if sourceWidth <= 0 || sourceHeight <= 0 {
        return None;
      }
      var c := ClampRect(sourceWidth, sourceHeight, Rect(x, y, width, height));
      var changed := c.x != cropX || c.y != cropY || c.w != cropW || c.h != cropH;
      cropX, cropY, cropW, cropH := c.x, c.y, c.w, c.h;
      signal := if changed && emitSignal then Some(Crop()) else None;
    }

    /** `set_source_size`: stores the size (at least 1 on each side) and resets
        the crop to the full frame, emitting `cropChanged` if that changed it. */
    method SetSourceSize(width: int, height: int) returns (signal: Option<Rect>)
      requires Valid()
      modifies this
      ensures Valid()
      ensures sourceWidth == Max(1, width) && sourceHeight == Max(1, height)
      ensures Crop() == ClampRect(sourceWidth, sourceHeight, Rect(0, 0, sourceWidth, sourceHeight))
      ensures sourceWidth >= MinSize && sourceHeight >= MinSize ==>
        Crop() == Rect(0, 0, sourceWidth, sourceHeight) && InBounds(sourceWidth, sourceHeight, Crop())
      ensures signal == CropSignal(true, old(Crop()), Crop())
      ensures hasImage == old(hasImage) && dragCorner == old(dragCorner) && draggingRect == old(draggingRect)
      ensures dragOffsetX == old(dragOffsetX) && dragOffsetY == old(dragOffsetY)
    {
      sourceWidth := Max(1, width);
      sourceHeight := Max(1, height);
      signal := SetCropRect(0, 0, sourceWidth, sourceHeight, true);
    }

    /** `set_frame`: a shown frame; the first one (while the source size is
        unset) also sets the source size from the frame's dimensions. */
    method SetFrame(width: int, height: int) returns (signal: Option<Rect>)
      requires Valid()
      modifies this
      ensures Valid()
      ensures hasImage
      ensures old(sourceWidth) == 0 ==>
        sourceWidth == Max(1, width) && sourceHeight == Max(1, height) &&
        Crop() == ClampRect(sourceWidth, sourceHeight, Rect(0, 0, sourceWidth, sourceHeight)) &&
        signal == CropSignal(true, old(Crop()), Crop())
      ensures old(sourceWidth) > 0 ==>
        sourceWidth == old(sourceWidth) && sourceHeight == old(sourceHeight) &&
        Crop() == old(Crop()) && signal == None
      ensures dragCorner == old(dragCorner) && draggingRect == old(draggingRect)
      ensures dragOffsetX == old(dragOffsetX) && dragOffsetY == old(dragOffsetY)
    {
      if sourceWidth == 0 || sourceHeight == 0 {
        signal := SetSourceSize(width, height);
      } else {
        signal := None;
      }
      hasImage := true;
    }

    /** `mousePressEvent`: only a left press over a shown frame acts. It clears
        the drag state, then a corner hit starts a corner drag; failing that,
        a hit inside the rectangle starts a move and records the pointer's
        offset from the rectangle's origin. The crop never changes here. */
    method MousePress(leftButton: bool, corner: Option<Corner>, inside: bool, px: int, py: int)
      requires Valid()
      modifies this
      ensures Valid()
      ensures !leftButton || !old(hasImage) ==> unchanged(this)
      ensures Crop() == old(Crop()) && hasImage == old(hasImage)
      ensures sourceWidth == old(sourceWidth) && sourceHeight == old(sourceHeight)
      ensures leftButton && old(hasImage) && corner.Some? ==>
        dragCorner == corner && !draggingRect &&
        dragOffsetX == old(dragOffsetX) && dragOffsetY == old(dragOffsetY)
      ensures leftButton && old(hasImage) && corner.None? && inside ==>
        dragCorner == None && draggingRect &&
        dragOffsetX == px - cropX && dragOffsetY == py - cropY
      ensures leftButton && old(hasImage) && corner.None? && !inside ==>
        dragCorner == None && !draggingRect &&
        dragOffsetX == old(dragOffsetX) && dragOffsetY == old(dragOffsetY)
    {
      if !leftButton || !hasImage {
        return;
      }
      dragCorner := None;
      draggingRect := false;
      if corner.Some? {
        dragCorner := corner;
        return;
      }
      if inside {
        draggingRect := true;
        dragOffsetX := px - cropX;
        dragOffsetY := py - cropY;
      }
    }

    /** `mouseMoveEvent` with the pointer at source point (px, py): without a
        drag only the hover changes; a rectangle drag moves the rectangle; a
        corner drag resizes it. Each drag stores through `set_crop_rect` with
        the signal on. */
    method MouseMove(px: int, py: int) returns (signal: Option<Rect>)
      requires Valid()
      modifies this
      ensures Valid()
      ensures sourceWidth == old(sourceWidth) && sourceHeight == old(sourceHeight) && hasImage == old(hasImage)
      ensures dragCorner == old(dragCorner) && draggingRect == old(draggingRect)
      ensures dragOffsetX == old(dragOffsetX) && dragOffsetY == old(dragOffsetY)
      ensures dragCorner == None && !draggingRect ==> Crop() == old(Crop()) && signal == None
      ensures draggingRect ==>
        Crop() == ClampRect(sourceWidth, sourceHeight,
          MovedRect(sourceWidth, sourceHeight, old(Crop()), dragOffsetX, dragOffsetY, px, py))
      ensures dragCorner.Some? ==>
        Crop() == ClampRect(sourceWidth, sourceHeight,
          ResizedRect(sourceWidth, sourceHeight, old(Crop()), dragCorner.value, px, py))
      ensures signal == CropSignal(dragCorner.Some? || draggingRect, old(Crop()), Crop())
      ensures sourceWidth >= MinSize && sourceHeight >= MinSize && dragCorner.Some? ==>
        InBounds(sourceWidth, sourceHeight, Crop())
      ensures draggingRect && old(InBounds(sourceWidth, sourceHeight, Crop())) ==>
        InBounds(sourceWidth, sourceHeight, Crop()) && cropW == old(cropW) && cropH == old(cropH)
    {
      if dragCorner.None? && !draggingRect {
        return None;
      }
      if draggingRect {
        var m := MovedRect(sourceWidth, sourceHeight, Crop(), dragOffsetX, dragOffsetY, px, py);
        signal := SetCropRect(m.x, m.y, m.w, m.h, true);
        return;
      }
      var c := ResizedRect(sourceWidth, sourceHeight, Crop(), dragCorner.value, px, py);
      signal := SetCropRect(c.x, c.y, c.w, c.h, true);
    }

    /** `mouseReleaseEvent`: ends any drag; the crop is untouched. */
    method MouseRelease()
      requires Valid()
      modifies this
      ensures Valid()
      ensures dragCorner == None && !draggingRect
      ensures Crop() == old(Crop()) && hasImage == old(hasImage)
      ensures sourceWidth == old(sourceWidth) && sourceHeight == old(sourceHeight)
      ensures dragOffsetX == old(dragOffsetX) && dragOffsetY == old(dragOffsetY)
    {
      dragCorner := None;
      draggingRect := false;
    }
  }
}

=== FILE: export_planning.dfy ===
/** The pure pieces of the main window's export path that sit between the
    widgets and the codecs: the range check, the sampled frame indices, the
    output-path suffix, the crop slice, and the small tables and clamps that
    pick encoder parameters. Decoding, resizing and encoding are foreign calls
    and appear only as parameters. */
module ExportPlanning {
  import opened Wrappers
  import opened Numeric
  import CropPreview

  // ---------------------------------------------------------------- strings

  /** ASCII lower-casing of one character. */
  function LowerChar(c: char): (l: char)
    ensures 'A' <= c <= 'Z' ==> 'a' <= l <= 'z' && l as int == c as int + 32
    ensures !('A' <= c <= 'Z') ==> l == c
  {
    if 'A' <= c <= 'Z' then (c as int + 32) as char else c
  }

  /** `str.lower()` on the ASCII range. */
  function Lower(s: string): (l: string)
    ensures |l| == |s|
    ensures forall i :: 0 <= i < |s| ==> l[i] == LowerChar(s[i])
    ensures IsLowerAscii(l)
  {
    seq(|s|, i requires 0 <= i < |s| => LowerChar(s[i]))
  }

  lemma LowerAppend(a: string, b: string)
    ensures Lower(a + b) == Lower(a) + Lower(b)
  {
    assert forall i :: 0 <= i < |a + b| ==> Lower(a + b)[i] == (Lower(a) + Lower(b))[i] by {
      forall i | 0 <= i < |a + b|
        ensures Lower(a + b)[i] == (Lower(a) + Lower(b))[i]
      {
        if i < |a| {
          assert (a + b)[i] == a[i];
        } else {
          assert (a + b)[i] == b[i - |a|];
        }
      }
    }
  }

  /** The string holds no upper-case ASCII letter. */
  predicate IsLowerAscii(s: string) {
    forall i :: 0 <= i < |s| ==> !('A' <= s[i] <= 'Z')
  }

  /** A string with no upper-case ASCII letter is its own lower-case form. */
  lemma LowerOfLower(s: string)
    requires IsLowerAscii(s)
    ensures Lower(s) == s
  {
  }

  /** `str.endswith`. */
  predicate EndsWith(s: string, suffix: string) {
    |suffix| <= |s| && s[|s| - |suffix|..] == suffix
  }

  lemma EndsWithAppended(s: string, suffix: string)
    ensures EndsWith(s + suffix, suffix)
  {
    assert (s + suffix)[|s|..] == suffix;
  }

  // ------------------------------------------------------ format tables

  datatype FormatDefault = FormatDefault(filter: string, suffix: string)

  /** The save dialog's filter and default suffix per format; an unknown
      format gets the GIF entry. */
  function FormatDefaults(fmt: string): (d: FormatDefault)
    ensures fmt in {"gif", "webm", "mp4", "mpeg"} ==> d.suffix == "." + fmt
    ensures fmt !in {"gif", "webm", "mp4", "mpeg"} ==> d == FormatDefault("GIF files (*.gif)", ".gif")
  {
    if fmt == "webm" then FormatDefault("WebM files (*.webm)", ".webm")
    else if fmt == "mp4" then FormatDefault("MP4 files (*.mp4)", ".mp4")
    else if fmt == "mpeg" then FormatDefault("MPEG files (*.mpeg *.mpg)", ".mpeg")
    else FormatDefault("GIF files (*.gif)", ".gif")
  }

  /** The video writer's fourCC per format, `mp4v` when the format is unknown;
      always four characters, as the writer requires. */
  function FourCC(fmt: string): (code: string)
    ensures |code| == 4
    ensures fmt == "webm" ==> code == "VP90"
    ensures fmt == "mpeg" ==> code == "PIM1"
    ensures fmt != "webm" && fmt != "mpeg" ==> code == "mp4v"
  {
    if fmt == "webm" then "VP90"
    else if fmt == "mp4" then "mp4v"
    else if fmt == "mpeg" then "PIM1"
    else "mp4v"
  }

  // --------------------------------------------------- path normalization

  /** Whether a lower-cased path already carries an extension the format accepts. */
  predicate HasAcceptedSuffix(lowerPath: string, fmt: string) {
    if fmt == "mpeg" then EndsWith(lowerPath, ".mpeg") || EndsWith(lowerPath, ".mpg")
    else EndsWith(lowerPath, "." + fmt)
  }

  /** The extension appended to a path that lacks an accepted one. */
  function AppendedSuffix(fmt: string): (s: string)
    ensures fmt == "mpeg" ==> s == ".mpeg"
    ensures fmt != "mpeg" ==> s == "." + fmt
  {
    if fmt == "mpeg" then ".mpeg" else "." + fmt
  }

  /** The save path with the format's extension enforced: kept when it already
      ends (in any letter case) with an accepted extension, else extended. */
  function NormalizeSuffix(savePath: string, fmt: string): (p: string)
    ensures savePath <= p
    ensures HasAcceptedSuffix(Lower(savePath), fmt) ==> p == savePath
    ensures !HasAcceptedSuffix(Lower(savePath), fmt) ==> p == savePath + AppendedSuffix(fmt)
    ensures IsLowerAscii(fmt) ==> HasAcceptedSuffix(Lower(p), fmt)
  {
    if HasAcceptedSuffix(Lower(savePath), fmt) then savePath
    else
      if IsLowerAscii(fmt) then
        AppendedSuffixAccepted(savePath, fmt);
        savePath + AppendedSuffix(fmt)
      else
        savePath + AppendedSuffix(fmt)
  }

  /** Any path with the appended extension has an accepted one. */
  lemma AppendedSuffixAccepted(path: string, fmt: string)
    requires IsLowerAscii(fmt)
    ensures HasAcceptedSuffix(Lower(path + AppendedSuffix(fmt)), fmt)
  {
    var suffix := AppendedSuffix(fmt);
    LowerAppend(path, suffix);
    assert IsLowerAscii(suffix) by {
      if fmt != "mpeg" {
        assert forall i :: 1 <= i < |suffix| ==> suffix[i] == fmt[i - 1];
      }
    }
    LowerOfLower(suffix);
    EndsWithAppended(Lower(path), suffix);
  }

  /** Normalizing a normalized path changes nothing. */
  lemma NormalizeSuffixIdempotent(savePath: string, fmt: string)
    requires IsLowerAscii(fmt)
    ensures NormalizeSuffix(NormalizeSuffix(savePath, fmt), fmt) == NormalizeSuffix(savePath, fmt)
  {
  }

  /** A path ending in the dialog's default suffix for a known format is kept. */
  lemma DefaultSuffixKept(stem: string, fmt: string)
    requires fmt in {"gif", "webm", "mp4", "mpeg"}
    ensures NormalizeSuffix(stem + FormatDefaults(fmt).suffix, fmt) == stem + FormatDefaults(fmt).suffix
  {
    assert FormatDefaults(fmt).suffix == AppendedSuffix(fmt);
    assert IsLowerAscii(fmt) by {
      if fmt == "gif" {
        assert fmt == ['g', 'i', 'f'];
      } else if fmt == "webm" {
        assert fmt == ['w', 'e', 'b', 'm'];
      } else if fmt == "mp4" {
        assert fmt == ['m', 'p', '4'];
      } else {
        assert fmt == ['m', 'p', 'e', 'g'];
      }
    }
    AppendedSuffixAccepted(stem, fmt);
  }

  /** Both MPEG extensions are kept, whatever their letter case. */
  lemma MpegExtensionsKept()
    ensures NormalizeSuffix("clip.MPG", "mpeg") == "clip.MPG"
    ensures NormalizeSuffix("clip.mpeg", "mpeg") == "clip.mpeg"
    ensures NormalizeSuffix("clip", "mpeg") == "clip.mpeg"
    ensures NormalizeSuffix("clip.gif", "mp4") == "clip.gif.mp4"
  {
    assert Lower("clip.MPG")[4..] == ".mpg";
    assert Lower("clip.mpeg")[4..] == ".mpeg";
    assert Lower("clip.gif")[4..] == ".gif";
    assert Lower("clip")[0] == 'c';
    assert Lower("clip.gif")[5] == 'g' && ("." + "mp4")[1] == 'm';
    assert "clip.gif" + ("." + "mp4") == "clip.gif.mp4";
  }

  // ------------------------------------------------------- frame sampling

  /** `range(start, end + 1, step)`: every step-th frame from start up to and
      including end. */
  function SampledIndices(start: int, end: int, step: int): (r: seq<int>)
    requires step >= 1
    ensures start > end ==> r == []
    ensures start <= end ==> |r| == (end - start) / step + 1
    ensures forall i :: 0 <= i < |r| ==> r[i] == start + i * step
    ensures forall i :: 0 <= i < |r| ==> start <= r[i] <= end
    ensures |r| > 0 ==> r[|r| - 1] + step > end
    decreases end + 1 - start
  {
    if start > end then []
    else
      var rest := SampledIndices(start + step, end, step);
      SampledStep(start, end, step, rest);
      [start] + rest
  }

  /** Prepending start to the indices sampled from start + step gives the
      indices sampled from start. */
  lemma SampledStep(start: int, end: int, step: int, rest: seq<int>)
    requires step >= 1 && start <= end
    requires start + step > end ==> rest == []
    requires start + step <= end ==> |rest| == (end - start - step) / step + 1
    requires forall i :: 0 <= i < |rest| ==> rest[i] == start + step + i * step
    ensures |[start] + rest| == (end - start) / step + 1
    ensures forall i :: 0 <= i < |rest| + 1 ==> ([start] + rest)[i] == start + i * step
  {
    DivStep(end - start, step);
    forall i | 1 <= i < |rest| + 1
      ensures ([start] + rest)[i] == start + i * step
    {
      assert ([start] + rest)[i] == rest[i - 1];
      assert (i - 1) * step + step == i * step;
    }
  }

  /** Removing one step from a non-negative distance removes one from the quotient. */
  lemma DivStep(a: int, step: int)
    requires a >= 0 && step >= 1
    ensures a < step ==> a / step == 0
    ensures a >= step ==> (a - step) / step == a / step - 1
  {
    DivFacts(a, step);
    if a >= step {
      DivFacts(a - step, step);
      var q, q' := a / step, (a - step) / step;
      assert q' * step <= a - step < q' * step + step;
      assert q * step <= a < q * step + step;
      assert (q' + 1) * step == q' * step + step;
      if q' + 1 < q {
        MulGap(q' + 1, q, step);
      }
      if q' + 1 > q {
        MulGap(q, q' + 1, step);
      }
    }
  }

  /** 100 frames sampled every third frame: 0, 3, ..., 99, 34 in all. */
  lemma SamplingExample()
    ensures |SampledIndices(0, 99, 3)| == 34
    ensures SampledIndices(0, 99, 3)[33] == 99
  {
  }

  /** The frame count the size estimate uses (`len(range(...))`), or nothing
      for an empty range. */
  function EstimateFrameCount(start: int, end: int, step: int): (n: Option<int>)
    requires step >= 1
    ensures n.Some? <==> start <= end
    ensures n.Some? ==> n.value == (end - start) / step + 1 && n.value >= 1
  {
    var count := |SampledIndices(start, end, step)|;
    if count <= 0 then None else Some(count)
  }

  // ------------------------------------------------------------- cropping

  /** `_apply_crop`: the slice of a `width` x `height` image that is kept; the
      whole image when there is no crop, else the crop rectangle clamped so the
      slice is non-empty and inside the image. */
  function ApplyCrop(crop: Option<CropPreview.Rect>, width: int, height: int): (s: CropPreview.Rect)
    ensures crop.None? ==> s == CropPreview.Rect(0, 0, width, height)
    ensures crop.Some? && width >= 1 && height >= 1 ==>
      0 <= s.x && 1 <= s.w && s.x + s.w <= width &&
      0 <= s.y && 1 <= s.h && s.y + s.h <= height
    ensures crop.Some? ==>
      (0 <= crop.value.x && 1 <= crop.value.w && crop.value.x + crop.value.w <= width &&
       0 <= crop.value.y && 1 <= crop.value.h && crop.value.y + crop.value.h <= height) ==> s == crop.value
  {
    match crop
    case None => CropPreview.Rect(0, 0, width, height)
    case Some(c) =>
      var x := Clamp(c.x, 0, width - 1);
      var y := Clamp(c.y, 0, height - 1);
      CropPreview.Rect(x, y, Max(1, Min(c.w, width - x)), Max(1, Min(c.h, height - y)))
  }

  /** A crop the editor keeps inside a source of the image's size is cut out as is. */
  lemma EditorCropCutExactly(r: CropPreview.Rect, width: int, height: int)
    requires CropPreview.InBounds(width, height, r)
    ensures ApplyCrop(Some(r), width, height) == r
  {
  }

  /** Any rectangle the editor can store, including one that reaches past the
      image's right or bottom edge, is cut at its own origin and trimmed to
      the image. */
  lemma StoredCropTrimmed(r: CropPreview.Rect, width: int, height: int)
    requires CropPreview.Normalized(width, height, r)
    ensures ApplyCrop(Some(r), width, height) ==
      CropPreview.Rect(r.x, r.y, Min(r.w, width - r.x), Min(r.h, height - r.y))
  {
  }

  /** The overhanging crop (8, 0, 4, 4) the editor keeps in a 10 x 10 frame is
      cut as (8, 0, 2, 4). */
  lemma OverhangingCropExample()
    ensures CropPreview.ClampRect(10, 10, CropPreview.Rect(8, 0, 4, 4)) == CropPreview.Rect(8, 0, 4, 4)
    ensures ApplyCrop(Some(CropPreview.Rect(8, 0, 4, 4)), 10, 10) == CropPreview.Rect(8, 0, 2, 4)
  {
  }

  // ----------------------------------------------------- encoder settings

  /** The GIF palette size: 16 colours at quality 0 rising to 256 at quality
      100, rounded, and never outside [16, 256]. */
  function PaletteColors(quality: int): (colors: int)
    ensures 16 <= colors <= 256
    ensures quality <= 0 ==> colors == 16
    ensures quality >= 100 ==> colors == 256
    ensures 0 <= quality <= 100 ==> -100 <= 2 * (colors * 100 - (1600 + 240 * quality)) <= 100
  {
    var raw := RoundHalfEven(1600 + 240 * quality, 100);
    if quality <= 0 then
      RoundWithin(1600 + 240 * quality, 100, 3 * quality, 16);
      Max(16, Min(256, raw))
    else if quality >= 100 then
      RoundWithin(1600 + 240 * quality, 100, 256, 256 + 3 * quality);
      Max(16, Min(256, raw))
    else Max(16, Min(256, raw))
  }

  /** A higher quality never gives a smaller palette. */
  lemma PaletteMonotone(q1: int, q2: int)
    requires q1 <= q2
    ensures PaletteColors(q1) <= PaletteColors(q2)
  {
    RoundMonotone(1600 + 240 * q1, 1600 + 240 * q2, 100);
  }

  /** The GIF frame duration: 1000 / fps ms rounded half to even, at least 1. */
  function FrameDurationMs(targetFps: int): (ms: int)
    requires targetFps >= 1
    ensures ms >= 1
    ensures targetFps <= 1000 ==> -targetFps <= 2 * (ms * targetFps - 1000) <= targetFps
  {
    if targetFps <= 1000 then
      RoundWithin(1000, targetFps, 1, 1000);
      Max(1, RoundHalfEven(1000, targetFps))
    else
      Max(1, RoundHalfEven(1000, targetFps))
  }

  /** 16 fps asks for 62.5 ms per frame, which rounds to the even 62. */
  lemma FrameDurationTie()
    ensures FrameDurationMs(16) == 62
    ensures FrameDurationMs(12) == 83
  {
  }

  /** The number of timeline thumbnails: the target, capped by the frame
      count, but never fewer than two. */
  function ThumbnailCount(target: int, frameCount: int): (n: int)
    ensures n >= 2
    ensures n == 2 || (n <= target && n <= frameCount)
    ensures target >= 2 && frameCount >= 2 ==> n == target || n == frameCount
  {
    Max(2, Min(target, frameCount))
  }

  // ----------------------------------------------------------- the plan

  datatype ExportError =
    | NoVideo
    | InvalidRange
    | SaveCancelled
    | NoFrames
    | Cancelled
    | ReadFailed(frame: int)
    | EncodeFailed

  /** The encoder settings an export uses: for GIF the frame duration, the
      palette size and whether the writer optimizes; for video the writer's
      fourCC and frame rate. */
  datatype Encoding =
    | GifEncoding(durationMs: int, paletteColors: int, optimize: bool)
    | VideoEncoding(fourcc: string, fps: int)

  datatype ExportPlan = ExportPlan(path: string, frameNumbers: seq<int>, encoding: Encoding)

  /** What `export_media` settles before touching a frame: the range check,
      the save path (empty when the dialog was cancelled) with its suffix
      enforced, the sampled frames and the encoder settings. */
  function PlanExport(start: int, end: int, formatText: string, savePath: string,
                      step: int, targetFps: int, quality: int): (r: Result<ExportPlan, ExportError>)
    requires step >= 1 && targetFps >= 1
    ensures end <= start ==> r == Failure(InvalidRange)
    ensures start < end && savePath == "" ==> r == Failure(SaveCancelled)
    ensures r.Success? <==> start < end && savePath != ""
    ensures r != Failure(NoFrames)
    ensures r.Success? ==>
      && r.value.frameNumbers == SampledIndices(start, end, step)
      && (|r.value.frameNumbers| == 1 <==> end - start < step)
    ensures r.Success? ==>
      && r.value.frameNumbers[0] == start
      && r.value.path == NormalizeSuffix(savePath, Lower(formatText))
      && savePath <= r.value.path
      && HasAcceptedSuffix(Lower(r.value.path), Lower(formatText))
    ensures r.Success? ==>
      (Lower(formatText) == "gif" <==> r.value.encoding.GifEncoding?)
    ensures r.Success? && r.value.encoding.GifEncoding? ==>
      r.value.encoding == GifEncoding(FrameDurationMs(targetFps), PaletteColors(quality), quality >= 70) &&
      r.value.encoding.durationMs >= 1 && 16 <= r.value.encoding.paletteColors <= 256
    ensures r.Success? && r.value.encoding.VideoEncoding? ==>
      r.value.encoding == VideoEncoding(FourCC(Lower(formatText)), targetFps)
  {
    if end <= start then Failure(InvalidRange)
    else if savePath == "" then Failure(SaveCancelled)
    else
      var fmt := Lower(formatText);
      var path := NormalizeSuffix(savePath, fmt);
      var frameNumbers := SampledIndices(start, end, step);
      DivStep(end - start, step);
      if |frameNumbers| == 0 then Failure(NoFrames)
      else
        var encoding :=
          if fmt == "gif" then GifEncoding(FrameDurationMs(targetFps), PaletteColors(quality), quality >= 70)
          else VideoEncoding(FourCC(fmt), targetFps);
        Success(ExportPlan(path, frameNumbers, encoding))
  }

  /** The size estimate counts exactly the frames an export would sample. */
  lemma EstimateCountsExportedFrames(start: int, end: int, formatText: string, savePath: string,
                                     step: int, targetFps: int, quality: int)
    requires step >= 1 && targetFps >= 1
    requires PlanExport(start, end, formatText, savePath, step, targetFps, quality).Success?
    ensures EstimateFrameCount(start, end, step) ==
      Some(|PlanExport(start, end, formatText, savePath, step, targetFps, quality).value.frameNumbers|)
  {
  }

  /** A one-frame range still gets a size estimate, although export refuses it. */
  lemma SingleFrameRangeRefused(frame: int, formatText: string, savePath: string, step: int, targetFps: int, quality: int)
    requires step >= 1 && targetFps >= 1
    ensures EstimateFrameCount(frame, frame, step) == Some(1)
    ensures PlanExport(frame, frame, formatText, savePath, step, targetFps, quality) == Failure(InvalidRange)
  {
  }

  // ------------------------------------------------------ the frame loop

  /** What reading the k-th sampled frame ends the export with, if anything:
      the progress dialog's cancel is checked first, then the decode. */
  function FrameError<Image>(frameNumbers: seq<int>, cancelled: nat -> bool, read: int -> Option<Image>, k: nat): (e: Option<ExportError>)
    requires k < |frameNumbers|
    ensures e.None? <==> !cancelled(k) && read(frameNumbers[k]).Some?
  {
    if cancelled(k) then Some(Cancelled)
    else if read(frameNumbers[k]).None? then Some(ReadFailed(frameNumbers[k]))
    else None
  }

  /** The first k frames were read without a cancel or a decode failure. */
  predicate CleanPrefix<Image>(frameNumbers: seq<int>, cancelled: nat -> bool, read: int -> Option<Image>, k: nat)
    requires k <= |frameNumbers|
  {
    forall j :: 0 <= j < k ==> FrameError(frameNumbers, cancelled, read, j).None?
  }

  /** The loop of `export_media` that reads every sampled frame before any is
      encoded: all or nothing. It yields every decoded frame in order, or the
      error of the first frame that was cancelled or failed to decode. */
  method CollectFrames<Image>(frameNumbers: seq<int>, cancelled: nat -> bool, read: int -> Option<Image>)
    returns (r: Result<seq<Image>, ExportError>)
    ensures r.Success? <==> forall k :: 0 <= k < |frameNumbers| ==> !cancelled(k) && read(frameNumbers[k]).Some?
    ensures r.Success? ==>
      |r.value| == |frameNumbers| &&
      forall k :: 0 <= k < |frameNumbers| ==> read(frameNumbers[k]) == Some(r.value[k])
    ensures r.Failure? ==>
      exists k :: 0 <= k < |frameNumbers| && CleanPrefix(frameNumbers, cancelled, read, k) &&
        FrameError(frameNumbers, cancelled, read, k) == Some(r.error)
  {
    var frames: seq<Image> := [];
    var i := 0;
    while i < |frameNumbers|
      invariant 0 <= i <= |frameNumbers|
      invariant CleanPrefix(frameNumbers, cancelled, read, i)
      invariant |frames| == i
      invariant forall k :: 0 <= k < i ==> read(frameNumbers[k]) == Some(frames[k])
    {
      if cancelled(i) {
        assert FrameError(frameNumbers, cancelled, read, i) == Some(Cancelled);
        return Failure(Cancelled);
      }
      var rgb := read(frameNumbers[i]);
      if rgb.None? {
        assert FrameError(frameNumbers, cancelled, read, i) == Some(ReadFailed(frameNumbers[i]));
        return Failure(ReadFailed(frameNumbers[i]));
      }
      frames := frames + [rgb.value];
      i := i + 1;
    }
    forall k | 0 <= k < |frameNumbers|
      ensures !cancelled(k) && read(frameNumbers[k]).Some?
    {
      assert FrameError(frameNumbers, cancelled, read, k).None?;
    }
    return Success(frames);
  }
}

=== FILE: main_window.dfy ===
/** The main window's own state and the two paths through it that matter for
    an export: loading a video (which resets the trim range and hands the new
    sizes to the crop editor and the timeline), the timeline signals that keep
    the window's copy of the range in step, and the export itself. The video
    reader, the file dialogs, the progress dialog and the codecs are foreign:
    their outcomes arrive as parameters. */
module MainWindow {
  import opened Wrappers
  import opened Numeric
  import CropPreview
  import Timeline
  import opened ExportPlanning

  /** What the video reader reports for an opened file (its frame rate only
      feeds the sampling step, which is an input here). */
  datatype VideoInfo = VideoInfo(frameCount: int, width: int, height: int)

  /** The dimensions of a decoded frame. */
  datatype FrameSize = FrameSize(width: int, height: int)

  /** A finished export: the path written, the slice of every sampled frame
      that was encoded (before resizing), and the encoder settings. */
  datatype ExportResult = ExportResult(path: string, slices: seq<CropPreview.Rect>, encoding: Encoding)

  /** The GIF width offered after a load: the video's width capped at 480,
      inside the spin box's range [120, 1920]. */
  function DefaultTargetWidth(videoWidth: int): (w: int)
    ensures 120 <= w <= 480
    ensures 120 <= videoWidth <= 480 ==> w == videoWidth
    ensures videoWidth >= 480 ==> w == 480
    ensures videoWidth <= 120 ==> w == 120
  {
    Clamp(Min(480, videoWidth), 120, 1920)
  }

  /** One pass of the export loop over a frame: decode it, then cut the crop
      out of it. A decode failure, or a frame with no pixels, ends the export. */
  function PrepareFrame(decoded: Option<FrameSize>, crop: Option<CropPreview.Rect>): (slice: Option<CropPreview.Rect>)
    ensures slice.Some? <==> decoded.Some? && decoded.value.width >= 1 && decoded.value.height >= 1
    ensures slice.Some? ==>
      0 <= slice.value.x && 1 <= slice.value.w && slice.value.x + slice.value.w <= decoded.value.width &&
      0 <= slice.value.y && 1 <= slice.value.h && slice.value.y + slice.value.h <= decoded.value.height
    ensures slice.Some? && crop.Some? ==>
      CropPreview.InBounds(decoded.value.width, decoded.value.height, crop.value) ==> slice.value == crop.value
    ensures slice.Some? ==> slice.value == ApplyCrop(crop, decoded.value.width, decoded.value.height)
  {
    match decoded
    case None => None
    case Some(size) =>
      if size.width >= 1 && size.height >= 1 then Some(ApplyCrop(crop, size.width, size.height))
      else None
  }

  class GifMakerWindow {
    const preview: CropPreview.CropPreviewWidget
    const timeline: Timeline.TimelineWidget
    var info: Option<VideoInfo>
    var currentFrame: int
    var startFrame: int
    var endFrame: int
    var exportEnabled: bool
    var targetWidth: int
    var targetFps: int
    var quality: int
    /** Whether the timeline was last sized for the loaded video: false after
        a load that failed while building the thumbnails, which skips
        `set_video_data`. */
    ghost var timelineSized: bool

    /** The window's copy of the scrub position and trim range is the timeline's. */
    ghost predicate Synced()
      reads this, timeline
    {
      currentFrame == timeline.currentFrame &&
      startFrame == timeline.startFrame &&
      endFrame == timeline.endFrame
    }

    /** A signal carries the timeline's current values. */
    ghost predicate SignalMatches(signal: Option<Timeline.Signal>)
      reads timeline
    {
      match signal
      case None => true
      case Some(CurrentFrameChanged(frame)) => frame == timeline.currentFrame
      case Some(RangeChanged(start, end)) => start == timeline.startFrame && end == timeline.endFrame
    }

    /** What the window holds after a timeline signal (if any) is delivered. */
    ghost predicate SyncedAfter(signal: Option<Timeline.Signal>)
      reads this, timeline
    {
      match signal
      case None => Synced()
      case Some(CurrentFrameChanged(frame)) =>
        frame == timeline.currentFrame && startFrame == timeline.startFrame && endFrame == timeline.endFrame
      case Some(RangeChanged(start, end)) =>
        currentFrame == timeline.currentFrame && start == timeline.startFrame && end == timeline.endFrame
    }

    /** The window's state apart from its copy of the timeline: both widgets
        consistent, a non-empty trim range, spin boxes in their ranges, and
        a loaded video is the one the crop editor was sized for. */
    ghost predicate WindowValid()
      reads this, preview, timeline
    {
      && preview.Valid() && timeline.Valid()
      && 0 <= currentFrame && 0 <= startFrame <= endFrame
      && 120 <= targetWidth <= 1920 && 1 <= targetFps <= 30 && 1 <= quality <= 100
      && (info.Some? ==>
            && exportEnabled
            && info.value.frameCount >= 2
            && preview.sourceWidth == Max(1, info.value.width)
            && preview.sourceHeight == Max(1, info.value.height))
    }

    /** The window's invariant: while the timeline is sized for the loaded
        video, the window's frame fields are the timeline's. */
    ghost predicate Valid()
      reads this, preview, timeline
    {
      && WindowValid()
      && (timelineSized ==>
            && Synced()
            && (info.Some? ==> timeline.frameCount == info.value.frameCount))
    }

    constructor ()
      ensures Valid() && timelineSized
      ensures info == None && !exportEnabled
      ensures currentFrame == 0 && startFrame == 0 && endFrame == 0
      ensures targetWidth == 480 && targetFps == 12 && quality == 80
    {
      preview := new CropPreview.CropPreviewWidget();
      timeline := new Timeline.TimelineWidget();
      info := None;
      currentFrame, startFrame, endFrame := 0, 0, 0;
      exportEnabled := false;
      targetWidth, targetFps, quality := 480, 12, 80;
      timelineSized := true;
    }

    /** `_show_frame`: a decoded frame goes to the crop editor; without an
        open video, or when decoding fails, nothing changes. */
    method ShowFrame(decoded: Option<FrameSize>)
      requires WindowValid()
      modifies preview
      ensures WindowValid()
      ensures info.Some? && decoded.Some? ==> preview.hasImage
      ensures info.None? || decoded.None? ==> unchanged(preview)
      ensures preview.sourceWidth > 0 ==> preview.Crop() == old(preview.Crop())
    {
      if info.Some? && decoded.Some? {
        var _ := preview.SetFrame(decoded.value.width, decoded.value.height);
      }
    }

    /** `load_video`: an empty path does nothing; a file the reader cannot open
        leaves no video loaded; an opened one resets the scrub position and
        the trim range to the whole video, enables export and resizes the
        crop editor. Then the thumbnails are read: when that succeeds the
        timeline is resized and the first frame shown; when a read fails the
        load stops there and the timeline keeps its old state. */
    method LoadVideo(path: string, openResult: Result<VideoInfo, string>, thumbnailsOk: bool,
                     firstFrame: Option<FrameSize>)
      requires Valid()
      requires openResult.Success? ==> openResult.value.frameCount >= 2
      modifies this, preview, timeline
      ensures Valid()
      ensures path == "" ==> unchanged(this, preview, timeline)
      ensures path != "" && openResult.Failure? ==>
        && info == None && unchanged(timeline) && unchanged(preview)
        && currentFrame == old(currentFrame) && startFrame == old(startFrame) && endFrame == old(endFrame)
        && exportEnabled == old(exportEnabled) && targetWidth == old(targetWidth)
        && targetFps == old(targetFps) && quality == old(quality)
        && timelineSized == old(timelineSized)
      ensures path != "" && openResult.Success? ==>
        && info == Some(openResult.value)
        && currentFrame == 0 && startFrame == 0 && endFrame == openResult.value.frameCount - 1
        && exportEnabled
        && targetWidth == DefaultTargetWidth(openResult.value.width)
        && targetFps == old(targetFps) && quality == old(quality)
        && preview.Crop() == CropPreview.ClampRect(preview.sourceWidth, preview.sourceHeight,
                                                    CropPreview.Rect(0, 0, preview.sourceWidth, preview.sourceHeight))
        && timelineSized == thumbnailsOk
      ensures path != "" && openResult.Success? && thumbnailsOk ==>
        && timeline.frameCount == openResult.value.frameCount && Synced()
        && (firstFrame.Some? ==> preview.hasImage)
      ensures path != "" && openResult.Success? && !thumbnailsOk ==>
        unchanged(timeline) && preview.hasImage == old(preview.hasImage)
    {
      if path == "" {
        return;
      }
      if openResult.Failure? {
        info := None;
        return;
      }
      var video := openResult.value;
      ResetForVideo(video);
      if !thumbnailsOk {
        timelineSized := false;
        return;
      }
      timeline.SetVideoData(video.frameCount, startFrame, endFrame, currentFrame);
      timelineSized := true;
      ShowFrame(firstFrame);
    }

    /** The part of `load_video` before the thumbnails: the window's fields
        reset for the opened video and the crop editor resized for it. */
    method ResetForVideo(video: VideoInfo)
      requires WindowValid() && video.frameCount >= 2
      modifies this, preview
      ensures WindowValid()
      ensures info == Some(video) && timelineSized == old(timelineSized)
      ensures currentFrame == 0 && startFrame == 0 && endFrame == video.frameCount - 1
      ensures exportEnabled && targetWidth == DefaultTargetWidth(video.width)
      ensures targetFps == old(targetFps) && quality == old(quality)
      ensures preview.Crop() == CropPreview.ClampRect(preview.sourceWidth, preview.sourceHeight,
                                                       CropPreview.Rect(0, 0, preview.sourceWidth, preview.sourceHeight))
      ensures preview.hasImage == old(preview.hasImage)
    {
      info := Some(video);
      currentFrame, startFrame, endFrame := 0, 0, video.frameCount - 1;
      exportEnabled := true;
      targetWidth := DefaultTargetWidth(video.width);
      var _ := preview.SetSourceSize(video.width, video.height);
    }

    /** The window's slots for the timeline's signals: `currentFrameChanged`
        moves the window's scrub position and shows that frame,
        `rangeChanged` copies the new trim range. */
    method DeliverTimelineSignal(signal: Option<Timeline.Signal>, decoded: Option<FrameSize>)
      requires WindowValid() && SignalMatches(signal)
      requires timelineSized ==> SyncedAfter(signal) && (info.Some? ==> timeline.frameCount == info.value.frameCount)
      modifies this, preview
      ensures Valid()
      ensures info == old(info) && timelineSized == old(timelineSized) && preview.Crop() == old(preview.Crop())
      ensures signal.None? ==> currentFrame == old(currentFrame) && startFrame == old(startFrame) && endFrame == old(endFrame)
      ensures signal.Some? && signal.value.CurrentFrameChanged? ==>
        currentFrame == timeline.currentFrame && startFrame == old(startFrame) && endFrame == old(endFrame)
      ensures signal.Some? && signal.value.RangeChanged? ==>
        currentFrame == old(currentFrame) && startFrame == timeline.startFrame && endFrame == timeline.endFrame
    {
      match signal
      case None =>
      case Some(CurrentFrameChanged(frame)) =>
        currentFrame := frame;
        ShowFrame(decoded);
      case Some(RangeChanged(start, end)) =>
        startFrame, endFrame := start, end;
    }

    /** A press on the timeline, with the track's geometry, and the window's
        reaction to whatever it emits: a left press away from both markers
        seeks the timeline and the window to the frame under x. */
    method TimelineMousePress(leftButton: bool, x: int, left: int, width: int, decoded: Option<FrameSize>)
      requires Valid()
      modifies this, preview, timeline
      ensures Valid()
      ensures info == old(info) && timelineSized == old(timelineSized)
      ensures startFrame == old(startFrame) && endFrame == old(endFrame)
      ensures timeline.frameCount == old(timeline.frameCount)
      ensures timeline.startFrame == old(timeline.startFrame) && timeline.endFrame == old(timeline.endFrame)
      ensures !leftButton ==> unchanged(timeline) && currentFrame == old(currentFrame)
      ensures leftButton ==>
        timeline.dragging == Some(Timeline.PressTarget(x,
          Timeline.FrameToX(timeline.frameCount, left, width, timeline.startFrame),
          Timeline.FrameToX(timeline.frameCount, left, width, timeline.endFrame)))
      ensures leftButton && timeline.dragging == Some(Timeline.Current) ==>
        currentFrame == timeline.currentFrame &&
        currentFrame == Timeline.XToFrame(timeline.frameCount, left, width, x)
      ensures leftButton && timeline.dragging != Some(Timeline.Current) ==>
        currentFrame == old(currentFrame) && timeline.currentFrame == old(timeline.currentFrame)
    {
      var signal := timeline.MousePress(leftButton, x, left, width);
      DeliverTimelineSignal(signal, decoded);
    }

    /** A drag on the timeline and the window's reaction: the timeline moves
        the grabbed handle, and whatever it reports as changed the window
        copies. */
    method TimelineMouseMove(x: int, left: int, width: int, decoded: Option<FrameSize>)
      requires Valid()
      modifies this, preview, timeline
      ensures Valid()
      ensures info == old(info) && timelineSized == old(timelineSized)
      ensures timeline.dragging == old(timeline.dragging) && timeline.frameCount == old(timeline.frameCount)
      ensures timelineSized ==> 0 <= startFrame <= endFrame <= timeline.frameCount - 1
      ensures timeline.dragging == None ==>
        unchanged(timeline) &&
        currentFrame == old(currentFrame) && startFrame == old(startFrame) && endFrame == old(endFrame)
      ensures timeline.dragging == Some(Timeline.Start) ==>
        && timeline.startFrame == Min(Timeline.XToFrame(timeline.frameCount, left, width, x), old(timeline.endFrame))
        && timeline.endFrame == old(timeline.endFrame) && timeline.currentFrame == old(timeline.currentFrame)
        && currentFrame == old(currentFrame)
        && (timeline.startFrame != old(timeline.startFrame) ==>
              startFrame == timeline.startFrame && endFrame == timeline.endFrame)
        && (timeline.startFrame == old(timeline.startFrame) ==>
              startFrame == old(startFrame) && endFrame == old(endFrame))
      ensures timeline.dragging == Some(Timeline.End) ==>
        && timeline.endFrame == Max(Timeline.XToFrame(timeline.frameCount, left, width, x), old(timeline.startFrame))
        && timeline.startFrame == old(timeline.startFrame) && timeline.currentFrame == old(timeline.currentFrame)
        && currentFrame == old(currentFrame)
        && (timeline.endFrame != old(timeline.endFrame) ==>
              startFrame == timeline.startFrame && endFrame == timeline.endFrame)
        && (timeline.endFrame == old(timeline.endFrame) ==>
              startFrame == old(startFrame) && endFrame == old(endFrame))
      ensures timeline.dragging == Some(Timeline.Current) ==>
        && timeline.currentFrame == Timeline.XToFrame(timeline.frameCount, left, width, x)
        && timeline.startFrame == old(timeline.startFrame) && timeline.endFrame == old(timeline.endFrame)
        && startFrame == old(startFrame) && endFrame == old(endFrame)
        && (timeline.currentFrame != old(timeline.currentFrame) ==> currentFrame == timeline.currentFrame)
        && (timeline.currentFrame == old(timeline.currentFrame) ==> currentFrame == old(currentFrame))
    {
      var signal := timeline.MouseMove(x, left, width);
      // The case split on the handle that DeliverTimelineSignal's precondition needs.
      assert timeline.dragging.Some? ==> timeline.dragging.value.Start? || timeline.dragging.value.End? || timeline.dragging.value.Current?;
      DeliverTimelineSignal(signal, decoded);
    }

    /** While the timeline is sized for the loaded video, the trim range the
        size estimate and the export use is the timeline's, inside the video. */
    lemma RangeIsTimelines()
      requires Valid()
      ensures 0 <= startFrame <= endFrame
      ensures timelineSized ==> endFrame <= timeline.frameCount - 1
      ensures timelineSized && info.Some? ==> endFrame <= info.value.frameCount - 1
    {
    }

    /** `export_media` with every foreign outcome as a parameter: the save
        dialog's path (empty when cancelled), the sampling step, the progress
        dialog's cancel state per frame, the decoder, and whether the encoder
        accepted the frames. The window's state is not changed. */
    method ExportMedia(formatText: string, savePath: string, step: int, cancelled: nat -> bool,
                       decode: int -> Option<FrameSize>, encoderOk: bool)
      returns (outcome: Result<ExportResult, ExportError>)
      requires Valid() && step >= 1
      ensures info.None? ==> outcome == Failure(NoVideo)
      ensures info.Some? ==>
        var planned := PlanExport(startFrame, endFrame, formatText, savePath, step, targetFps, quality);
        && (planned.Failure? ==> outcome == Failure(planned.error))
        && (planned.Success? && timelineSized ==> forall k :: 0 <= k < |planned.value.frameNumbers| ==>
              0 <= planned.value.frameNumbers[k] < info.value.frameCount)
        && (planned.Success? ==>
              PlanOutcome(planned.value, cancelled, Preparer(decode, preview.CropRect()), encoderOk, outcome))
    {
      if info.None? {
        return Failure(NoVideo);
      }
      RangeIsTimelines();
      var planned := PlanExport(startFrame, endFrame, formatText, savePath, step, targetFps, quality);
      if planned.Failure? {
        return Failure(planned.error);
      }
      outcome := RunPlan(planned.value, cancelled, Preparer(decode, preview.CropRect()), encoderOk);
    }
  }

  /** What the part of `export_media` after the plan promises: success
      exactly when the encoder succeeds and no frame is cancelled or fails to
      decode, and then the planned path and encoding with one slice per
      sampled frame, in order; a frame's error is that of the first frame that
      was cancelled or failed; `EncodeFailed` exactly when every frame was
      prepared and the encoder failed. */
  ghost predicate PlanOutcome(plan: ExportPlan, cancelled: nat -> bool, prepare: int -> Option<CropPreview.Rect>,
                              encoderOk: bool, outcome: Result<ExportResult, ExportError>)
  {
    && (outcome.Success? <==>
          encoderOk && forall k :: 0 <= k < |plan.frameNumbers| ==> !cancelled(k) && prepare(plan.frameNumbers[k]).Some?)
    && (outcome.Success? ==>
          && outcome.value.path == plan.path
          && outcome.value.encoding == plan.encoding
          && |outcome.value.slices| == |plan.frameNumbers|
          && forall k :: 0 <= k < |plan.frameNumbers| ==> prepare(plan.frameNumbers[k]) == Some(outcome.value.slices[k]))
    && (outcome == Failure(EncodeFailed) ==>
          !encoderOk && forall k :: 0 <= k < |plan.frameNumbers| ==> !cancelled(k) && prepare(plan.frameNumbers[k]).Some?)
    && (outcome.Failure? && outcome.error != EncodeFailed ==>
          exists k :: 0 <= k < |plan.frameNumbers| &&
            CleanPrefix(plan.frameNumbers, cancelled, prepare, k) &&
            FrameError(plan.frameNumbers, cancelled, prepare, k) == Some(outcome.error))
    && ((!encoderOk &&
          forall k :: 0 <= k < |plan.frameNumbers| ==> !cancelled(k) && prepare(plan.frameNumbers[k]).Some?) ==>
          outcome == Failure(EncodeFailed))
  }

  /** The part of `export_media` after the plan: every sampled frame is
      prepared, then the encoder runs. */
  method RunPlan(plan: ExportPlan, cancelled: nat -> bool, prepare: int -> Option<CropPreview.Rect>, encoderOk: bool)
    returns (outcome: Result<ExportResult, ExportError>)
    ensures PlanOutcome(plan, cancelled, prepare, encoderOk, outcome)
  {
    var collected := CollectFrames(plan.frameNumbers, cancelled, prepare);
    if collected.Failure? {
      return Failure(collected.error);
    }
    if !encoderOk {
      return Failure(EncodeFailed);
    }
    return Success(ExportResult(plan.path, collected.value, plan.encoding));
  }

  /** The export loop's per-frame step for one decoder and one crop. */
  function Preparer(decode: int -> Option<FrameSize>, crop: Option<CropPreview.Rect>): (prepare: int -> Option<CropPreview.Rect>)
    ensures forall n :: prepare(n) == PrepareFrame(decode(n), crop)
  {
    (n: int) => PrepareFrame(decode(n), crop)
  }
}

=== FILE: numeric.dfy ===
/** Integer counterparts of the Python built-ins the widgets use:
    `min`, `max`, `abs`, `int()` on a quotient (truncation toward zero) and
    `round()` (round half to even). */
module Numeric {

  function Min(a: int, b: int): (r: int)
    ensures r <= a && r <= b && (r == a || r == b)
  {
    if a <= b then a else b
  }

  function Max(a: int, b: int): (r: int)
    ensures r >= a && r >= b && (r == a || r == b)
  {
    if a >= b then a else b
  }

  function Abs(a: int): (r: int)
    ensures r >= 0 && (r == a || r == -a)
  {
    if a >= 0 then a else -a
  }

  /** `max(lo, min(v, hi))`, the clamp idiom used throughout the widgets. */
  function Clamp(v: int, lo: int, hi: int): (r: int)
    ensures lo <= hi ==> lo <= r <= hi
    ensures lo <= v <= hi ==> r == v
    ensures v < lo ==> r == lo
    ensures hi < lo ==> r == lo
    ensures lo <= hi < v ==> r == hi
  {
    Max(lo, Min(v, hi))
  }

  /** Python `int(a / b)` for b > 0: the exact quotient truncated toward zero. */
  function TruncDiv(a: int, b: int): (q: int)
    requires b > 0
    ensures a >= 0 ==> q >= 0 && q * b <= a < q * b + b
    ensures a < 0 ==> q <= 0 && q * b - b < a <= q * b
  {
    if a >= 0 then
      DivFacts(a, b);
      a / b
    else
      DivFacts(-a, b);
      -((-a) / b)
  }

  /** Euclidean division of a non-negative numerator, as a quotient and a bound. */
  lemma DivFacts(a: int, b: int)
    requires a >= 0 && b > 0
    ensures a / b >= 0 && (a / b) * b <= a < (a / b) * b + b
  {
    assert a == (a / b) * b + a % b;
  }

  lemma TruncDivMonotone(a1: int, a2: int, b: int)
    requires b > 0 && a1 <= a2
    ensures TruncDiv(a1, b) <= TruncDiv(a2, b)
  {
    var q1, q2 := TruncDiv(a1, b), TruncDiv(a2, b);
    if q1 > q2 {
      MulGap(q2, q1, b);
    }
  }

  lemma MulMonotone(x: int, y: int, b: int)
    requires x <= y && b >= 0
    ensures x * b <= y * b
  {
  }

  /** Consecutive multiples of d are d apart. */
  lemma MulGap(x: int, y: int, d: int)
    requires x < y && d >= 0
    ensures x * d + d <= y * d
  {
    MulMonotone(x + 1, y, d);
    assert (x + 1) * d == x * d + d;
  }

  /** Python `round(n / d)` for d > 0, on the exact rational: the nearest
      integer, ties going to the even neighbour. */
  function RoundHalfEven(n: int, d: int): (r: int)
    requires d > 0
    ensures -d <= 2 * (r * d - n) <= d
    ensures (2 * (r * d - n) == d || 2 * (r * d - n) == -d) ==> r % 2 == 0
  {
    var q, rem := n / d, n % d;
    assert n == q * d + rem && 0 <= rem < d;
    if 2 * rem < d then q
    else if 2 * rem > d then q + 1
    else if q % 2 == 0 then q
    else q + 1
  }

  /** A quotient that lies between lo and hi rounds to a value between them. */
  lemma RoundWithin(n: int, d: int, lo: int, hi: int)
    requires d > 0 && lo * d <= n <= hi * d
    ensures lo <= RoundHalfEven(n, d) <= hi
  {
    var r := RoundHalfEven(n, d);
    if r < lo {
      MulGap(r, lo, d);
    }
    if r > hi {
      MulGap(hi, r, d);
    }
  }

  /** A quotient closer than one half to k rounds to k. */
  lemma RoundNearK(n: int, d: int, k: int)
    requires d > 0 && -d < 2 * (k * d - n) < d
    ensures RoundHalfEven(n, d) == k
  {
    var r := RoundHalfEven(n, d);
    if r < k {
      MulGap(r, k, d);
    }
    if r > k {
      MulGap(k, r, d);
    }
  }

  /** Rounding is monotone in the numerator. */
  lemma RoundMonotone(n1: int, n2: int, d: int)
    requires d > 0 && n1 <= n2
    ensures RoundHalfEven(n1, d) <= RoundHalfEven(n2, d)
  {
    var r1, r2 := RoundHalfEven(n1, d), RoundHalfEven(n2, d);
    if n1 < n2 && r1 > r2 {
      MulGap(r2, r1, d);
    }
  }
}

=== FILE: timeline_widget.dfy ===
/** The trim-range timeline (`TimelineWidget`): a frame count, a trim range
    `[startFrame, endFrame]`, a scrub position `currentFrame`, and the drag
    handle a press selected. Frame indices map to x positions on a track whose
    left edge and width are parameters (Qt's `right()` is `left + width - 1`);
    thumbnails and painting are not modelled. */
module Timeline {
  import opened Wrappers
  import opened Numeric

  /** `HANDLE_RADIUS`: how close (in px) a press must be to a range marker to grab it. */
  const HandleRadius: int := 7

  datatype Handle = Start | End | Current

  /** The two notifications the timeline emits. */
  datatype Signal = CurrentFrameChanged(frame: int) | RangeChanged(start: int, end: int)

  /** The divisor both maps use: the track width less one, and at least 1. */
  function TrackSpan(width: int): (s: int)
    ensures s >= 1 && s >= width - 1
    ensures width >= 2 ==> s == width - 1
    ensures width <= 1 ==> s == 1
  {
    Max(1, width - 1)
  }

  /** `_frame_to_x`: frame 0 at the left edge, the last frame `TrackSpan`
      pixels to its right, linear in between with the fraction truncated. */
  function FrameToX(frameCount: int, left: int, width: int, frame: int): (x: int)
    ensures frameCount <= 1 ==> x == left
    ensures frameCount > 1 && 0 <= frame <= frameCount - 1 ==> left <= x <= left + TrackSpan(width)
    ensures frameCount > 1 && frame == 0 ==> x == left
    ensures frameCount > 1 && frame == frameCount - 1 ==> x == left + TrackSpan(width)
  {
    if frameCount <= 1 then left
    else
      ScaleWithin(frame, frameCount - 1, TrackSpan(width));
      left + TruncDiv(frame * TrackSpan(width), frameCount - 1)
  }

  /** A frame in `[0, n]` scaled onto `[0, span]` stays in it, with the ends fixed. */
  lemma ScaleWithin(frame: int, n: int, span: int)
    requires n > 0 && span > 0
    ensures 0 <= frame <= n ==> 0 <= TruncDiv(frame * span, n) <= span
    ensures frame == n ==> TruncDiv(frame * span, n) == span
  {
    if 0 <= frame <= n {
      var q := TruncDiv(frame * span, n);
      MulMonotone(frame, n, span);
      assert q * n <= frame * span < q * n + n && frame * span <= n * span;
      if q > span {
        MulGap(span, q, n);
      }
      if frame == n && q < span {
        MulGap(q, span, n);
      }
    }
  }

  /** A position in `[0, span]` scaled onto frames `[0, n]` and rounded stays in
      `[0, n]`, with the far end landing on n. */
  lemma RoundScaleWithin(pos: int, span: int, n: int)
    requires span > 0 && n >= 0 && 0 <= pos <= span
    ensures 0 <= RoundHalfEven(pos * n, span) <= n
    ensures pos == span ==> RoundHalfEven(pos * n, span) == n
  {
    MulMonotone(pos, span, n);
    RoundWithin(pos * n, span, 0, n);
    if pos == span {
      RoundNearK(span * n, span, n);
    }
  }

  /** `_frame_to_x` never moves a later frame to the left of an earlier one. */
  lemma FrameToXMonotone(frameCount: int, left: int, width: int, f1: int, f2: int)
    requires f1 <= f2
    ensures FrameToX(frameCount, left, width, f1) <= FrameToX(frameCount, left, width, f2)
  {
    if frameCount > 1 {
      var span := TrackSpan(width);
      MulMonotone(f1, f2, span);
      TruncDivMonotone(f1 * span, f2 * span, frameCount - 1);
    }
  }

  /** `_x_to_frame`: x is first clamped to the track, then its fraction of
      the track is scaled to a frame and rounded half to even. */
  function XToFrame(frameCount: int, left: int, width: int, x: int): (f: int)
    ensures frameCount <= 1 ==> f == 0
    ensures frameCount > 1 ==> 0 <= f <= frameCount - 1
    ensures x <= left ==> f == 0
    ensures frameCount > 1 && width >= 2 && x >= left + width - 1 ==> f == frameCount - 1
  {
    if frameCount <= 1 then 0
    else
      var span := TrackSpan(width);
      var pos := Clamp(x, left, left + width - 1) - left;
      RoundScaleWithin(pos, span, frameCount - 1);
      RoundHalfEven(pos * (frameCount - 1), span)
  }

  /** On a track of at least two pixels a position q pixels right of the left
      edge, inside the track, maps to q·n / d rounded. */
  lemma XToFrameOnTrack(frameCount: int, left: int, width: int, q: int)
    requires frameCount > 1 && width >= 2 && 0 <= q <= width - 1
    ensures XToFrame(frameCount, left, width, left + q) == RoundHalfEven(q * (frameCount - 1), width - 1)
  {
    assert TrackSpan(width) == width - 1;
    assert Clamp(left + q, left, left + width - 1) - left == q;
  }

  /** Mapping a frame to x and back rounds q·n / d, where n is the last frame,
      d the track span and q the pixel offset the frame maps to. */
  lemma RoundTripUnfold(frameCount: int, left: int, width: int, frame: int) returns (q: int)
    requires frameCount > 1 && 0 <= frame <= frameCount - 1 && width >= 2
    ensures 0 <= q * (frameCount - 1) <= frame * (width - 1) < q * (frameCount - 1) + (frameCount - 1)
    ensures XToFrame(frameCount, left, width, FrameToX(frameCount, left, width, frame)) ==
      RoundHalfEven(q * (frameCount - 1), width - 1)
  {
    var n, d := frameCount - 1, width - 1;
    assert TrackSpan(width) == d;
    MulMonotone(0, frame, d);
    q := TruncDiv(frame * d, n);
    MulMonotone(0, q, n);
    ScaleWithin(frame, n, d);
    assert FrameToX(frameCount, left, width, frame) == left + q;
    XToFrameOnTrack(frameCount, left, width, q);
  }

  /** Mapping a frame to x and back lands on that frame or the one before it
      whenever the track has at least one pixel per frame step. */
  lemma FrameRoundTrip(frameCount: int, left: int, width: int, frame: int)
    requires frameCount > 1 && 0 <= frame <= frameCount - 1
    requires width - 1 >= frameCount - 1
    ensures var back := XToFrame(frameCount, left, width, FrameToX(frameCount, left, width, frame));
      frame - 1 <= back <= frame
  {
    var n, d := frameCount - 1, width - 1;
    var q := RoundTripUnfold(frameCount, left, width, frame);
    assert (frame - 1) * d == frame * d - d;
    RoundWithin(q * n, d, frame - 1, frame);
  }

  /** Without a pixel per frame step the round trip can drift by more than
      one frame: on a 101 px track with 1001 frames, frame 5 maps to the left
      edge, which maps back to frame 0. */
  lemma RoundTripNeedsPixels()
    ensures FrameToX(1001, 0, 101, 5) == 0
    ensures XToFrame(1001, 0, 101, 0) == 0
  {
  }

  /** With at least two pixels per frame step the round trip is exact. */
  lemma FrameRoundTripExact(frameCount: int, left: int, width: int, frame: int)
    requires frameCount > 1 && 0 <= frame <= frameCount - 1
    requires width - 1 >= 2 * (frameCount - 1)
    ensures XToFrame(frameCount, left, width, FrameToX(frameCount, left, width, frame)) == frame
  {
    var n, d := frameCount - 1, width - 1;
    var q := RoundTripUnfold(frameCount, left, width, frame);
    RoundNearK(q * n, d, frame);
  }

  /** The handle a press at x grabs, given the start and end markers' x:
      the start marker wins when both are within reach. */
  function PressTarget(x: int, startX: int, endX: int): (h: Handle)
    ensures h == Start <==> Abs(x - startX) <= HandleRadius
    ensures h == End <==> Abs(x - startX) > HandleRadius && Abs(x - endX) <= HandleRadius
    ensures h == Current <==> Abs(x - startX) > HandleRadius && Abs(x - endX) > HandleRadius
  {
    if Abs(x - startX) <= HandleRadius then Start
    else if Abs(x - endX) <= HandleRadius then End
    else Current
  }

  class TimelineWidget {
    var frameCount: int
    var currentFrame: int
    var startFrame: int
    var endFrame: int
    var dragging: Option<Handle>

    /** The timeline's invariant: at least one frame, a non-empty trim range
        inside it, and the scrub position inside it (not necessarily inside
        the trim range). */
    predicate Valid()
      reads this
    {
      1 <= frameCount &&
      0 <= startFrame <= endFrame <= frameCount - 1 &&
      0 <= currentFrame <= frameCount - 1
    }

    constructor ()
      ensures Valid()
      ensures frameCount == 1 && currentFrame == 0 && startFrame == 0 && endFrame == 0
      ensures dragging == None
    {
      frameCount, currentFrame, startFrame, endFrame := 1, 0, 0, 0;
      dragging := None;
    }

    /** `set_video_data`: a new frame count (at least 1) and the range and
        scrub position clamped into it; no signal is emitted. */
    method SetVideoData(count: int, start: int, end: int, current: int)
      modifies this
      ensures Valid()
      ensures frameCount == Max(count, 1)
      ensures startFrame == Clamp(start, 0, frameCount - 1)
      ensures endFrame == Clamp(end, startFrame, frameCount - 1)
      ensures currentFrame == Clamp(current, 0, frameCount - 1)
      ensures 0 <= start <= end < count ==> startFrame == start && endFrame == end
      ensures 0 <= current < count ==> currentFrame == current
      ensures dragging == old(dragging)
    {
      frameCount := Max(count, 1);
      startFrame := Max(0, Min(start, frameCount - 1));
      endFrame := Max(startFrame, Min(end, frameCount - 1));
      currentFrame := Max(0, Min(current, frameCount - 1));
    }

    /** `set_current_frame`: the frame clamped into the video; no signal. */
    method SetCurrentFrame(frame: int)
      requires Valid()
      modifies this
      ensures Valid()
      ensures currentFrame == Clamp(frame, 0, frameCount - 1)
      ensures frameCount == old(frameCount) && startFrame == old(startFrame) && endFrame == old(endFrame)
      ensures dragging == old(dragging)
    {
      var f := Max(0, Min(frame, frameCount - 1));
      if f != currentFrame {
        currentFrame := f;
      }
    }

    /** `set_range`: start clamped into the video, end clamped between start
        and the last frame; `rangeChanged` only when either moved. */
    method SetRange(start: int, end: int) returns (signal: Option<Signal>)
      requires Valid()
      modifies this
      ensures Valid()
      ensures startFrame == Clamp(start, 0, frameCount - 1)
      ensures endFrame == Clamp(end, startFrame, frameCount - 1)
      ensures signal.Some? <==> startFrame != old(startFrame) || endFrame != old(endFrame)
      ensures signal.Some? ==> signal.value == RangeChanged(startFrame, endFrame)
      ensures frameCount == old(frameCount) && currentFrame == old(currentFrame)
      ensures dragging == old(dragging)
    {
      var s := Max(0, Min(start, frameCount - 1));
      var e := Max(s, Min(end, frameCount - 1));
      var changed := s != startFrame || e != endFrame;
      startFrame, endFrame := s, e;
      signal := if changed then Some(RangeChanged(s, e)) else None;
    }

    /** `mousePressEvent` at x on the track `[left, left + width - 1]`: only a
        left press acts. Near the start marker it grabs `start` (checked
        first), else near the end marker `end`, else it grabs `current`,
        seeks there and emits `currentFrameChanged` unconditionally. */
    method MousePress(leftButton: bool, x: int, left: int, width: int) returns (signal: Option<Signal>)
      requires Valid()
      modifies this
      ensures Valid()
      ensures !leftButton ==> unchanged(this) && signal == None
      ensures frameCount == old(frameCount) && startFrame == old(startFrame) && endFrame == old(endFrame)
      ensures leftButton ==>
        dragging == Some(PressTarget(x, FrameToX(frameCount, left, width, startFrame),
                                        FrameToX(frameCount, left, width, endFrame)))
      ensures leftButton && dragging != Some(Current) ==> currentFrame == old(currentFrame) && signal == None
      ensures leftButton && dragging == Some(Current) ==>
        currentFrame == XToFrame(frameCount, left, width, x) &&
        signal == Some(CurrentFrameChanged(currentFrame))
    {
      if !leftButton {
        return None;
      }
      var startX := FrameToX(frameCount, left, width, startFrame);
      var endX := FrameToX(frameCount, left, width, endFrame);
      var target := PressTarget(x, startX, endX);
      if target == Start {
        dragging := Some(Start);
        signal := None;
      } else if target == End {
        dragging := Some(End);
        signal := None;
      } else {
        dragging := Some(Current);
        var frame := XToFrame(frameCount, left, width, x);
        currentFrame := frame;
        signal := Some(CurrentFrameChanged(frame));
      }
    }

    /** `mouseMoveEvent` at x: dragging `start` moves the start to the frame
        under x but not past the end; dragging `end` moves the end but not
        before the start; dragging `current` seeks, unclamped to the trim
        range, and emits only when the frame differs. */
    method MouseMove(x: int, left: int, width: int) returns (signal: Option<Signal>)
      requires Valid()
      modifies this
      ensures Valid()
      ensures dragging == old(dragging) && frameCount == old(frameCount)
      ensures dragging == None ==> unchanged(this) && signal == None
      ensures dragging == Some(Start) ==>
        startFrame == Min(XToFrame(frameCount, left, width, x), old(endFrame)) &&
        endFrame == old(endFrame) && currentFrame == old(currentFrame) &&
        (signal.Some? <==> startFrame != old(startFrame)) &&
        (signal.Some? ==> signal.value == RangeChanged(startFrame, endFrame))
      ensures dragging == Some(End) ==>
        endFrame == Max(XToFrame(frameCount, left, width, x), old(startFrame)) &&
        startFrame == old(startFrame) && currentFrame == old(currentFrame) &&
        (signal.Some? <==> endFrame != old(endFrame)) &&
        (signal.Some? ==> signal.value == RangeChanged(startFrame, endFrame))
      ensures dragging == Some(Current) ==>
        currentFrame == XToFrame(frameCount, left, width, x) &&
        startFrame == old(startFrame) && endFrame == old(endFrame) &&
        signal == (if currentFrame != old(currentFrame) then Some(CurrentFrameChanged(currentFrame)) else None)
    {
      if dragging.None? {
        return None;
      }
      var frame := XToFrame(frameCount, left, width, x);
      match dragging.value
      case Start =>
        signal := SetRange(Min(frame, endFrame), endFrame);
      case End =>
        signal := SetRange(startFrame, Max(frame, startFrame));
      case Current =>
        if frame != currentFrame {
          currentFrame := frame;
          signal := Some(CurrentFrameChanged(frame));
        } else {
          signal := None;
        }
    }

    /** `mouseReleaseEvent`: drops the handle; nothing else changes. */
    method MouseRelease()
      modifies this
      ensures dragging == None
      ensures frameCount == old(frameCount) && currentFrame == old(currentFrame)
      ensures startFrame == old(startFrame) && endFrame == old(endFrame)
    {
      dragging := None;
    }
  }
}

=== FILE: wrappers.dfy ===
/** Optional values and results with an error, for the signals the widgets emit
    and the failures the export path reports. */
module Wrappers {

  datatype Option<+T> = None | Some(value: T)

  datatype Result<+R, +E> = Success(value: R) | Failure(error: E)
}
